=== FILE: README.md ===
# Fortress Conquest in Dafny

A Dafny model of the core of Fortress Conquest. It is a two-player real-time
strategy game on a fixed map of twelve fortresses. Each fortress has:

- an owner: neutral (0), Blue (1, the bottom player) or Red (2, the top player);
- a kind (0 or 1) and a level (1..5);
- a (fractional) pawn count;
- an upgrade timer (-1 when idle).

Fortresses produce pawns. A player can deploy half the pawns of one of its
fortresses towards a reachable fortress, or pay half a fortress's capacity to
upgrade it over 200 ticks. Deployed pawns leave their origin one at a time
(every 7th tick for kind 0, every 10th for kind 1). On arrival each pawn adds 1
to a friendly fortress or deals 0.65 / 0.95 damage to a hostile one. A hostile
fortress driven below zero is captured.

The model has three parts:

- **The engine** (`Engine`, over the data of `Board`). Every rule is a pure
  function over immutable records:
  - the two command guards and their effects;
  - the dispatcher `order`;
  - arrival and capture;
  - production;
  - decay above capacity;
  - batch release;
  - the upgrade countdown;
  - the fortress tally `CheckGameOver`.

  `Engine.Tick` is one pass of the main loop body. It uses the loop's own order:
  1. move and resolve arrivals;
  2. check for the end;
  3. ask both controllers (Red through the flipped view);
  4. apply Blue's command, then Red's;
  5. release;
  6. produce;
  7. decay on every 40th tick;
  8. count down upgrades;
  9. advance the tick and check again.

  `EngineProofs` proves that a tick preserves the invariants of a match:
  - levels stay in 1..5;
  - timers stay in {-1} ∪ 0..200;
  - pawn and batch counts never go negative;
  - indices stay on the board;
  - no two pawns in flight are equal, and all were released before the current tick.

  This holds for any controller answers and any arrival report. `EngineProofs`
  also proves that release conserves pawns, tick by tick and over a batch's
  lifetime.
- **The perspective flip** (`Perspective`). Red is shown a relabelled board:
  - fortress contents move through the index involution `swapL`, but
    neighbour lists stay where they were;
  - pawns and batches get their teams swapped and their endpoints mapped
    through `swapD`.
- **The 432-slot action codec and the legality mask** (`ActionCodec`). The
  learned controllers (`Onct`, `MlPlayer`, `DefensivePlayer`) and the defensive
  training environment (`DefensiveGym`) all use it. The layout is:
  - slot 0 waits;
  - slot `144 + 12s + t` deploys from `s` to `t`;
  - slot `288 + 12s + t` upgrades `s`.

  Decoding the slot of the wait triple (0, 0, 0) or of any deploy or upgrade
  triple on the board gives the triple back (`ActionCodec.DecodeEncode`).
  Encoding the decoding of slot 0 or of any slot from 144 up gives the slot
  back (`ActionCodec.EncodeDecode`). Neither composition is the identity
  everywhere. Slots 1..143 decode to the wait, which encodes to 0. A code-0
  triple with a non-zero subject or target encodes into 1..143.

  The mask is proved equal to the engine's guards. On Red's side this needs
  a reachability table that is symmetric under `swapL`.

Config tables are parameters. The capacity, production-interval,
reachability, spawn-point and index-map tables and the tick ceiling live in a
configuration file that is not part of this model. They are the fields of
`Board.Config`. `Board.ValidConfig` states what the engine assumes of them:
- intervals and capacities are positive for levels 1..5;
- the tables are 12 × 12;
- both index maps are involutions on 0..11.

`Board.SymmetricBoard` adds that reachability looks the same from both sides.

Numbers are modelled as follows:

- Pawn counts are `real`. That is exact for the constants involved: +1, -0.65
  and -0.95.
- Python's `p // 2` on a non-negative count is `(p / 2.0).Floor`.
- Team, kind, level and timer are plain `int` fields constrained by invariant
  predicates. This lets the model state what the code does with values
  outside the expected ranges, for example `Swap_team` mapping every value
  other than 0 and 2 to 2.

### Where the model follows the code rather than the documented intent

- Production does not test the owner. Neutral fortresses produce too, as
  `pawn_born` does (src/tcg/game.py:177-185).
- Controllers are typed to return `Engine.BoardOrder`, whose indices lie in
  0..11. The Python code does not check them, and what an index of 12 or
  more does depends on the seat:
  - For Blue, `order` never reads the indices of code 0 or an unknown code,
    and `upgrade` never reads the target. A subject of 12 or more makes
    `deliver` or `upgrade` raise `IndexError`. `deliver` reads a target of 12
    or more only once the owner and pawn test has passed
    (src/tcg/game.py:197-198), so when that test fails the order is a silent
    no-op.
  - For Red, both indices go through `swap_number_l` before `order` is called
    (src/tcg/game.py:381-382), so an index of 12 or more raises `IndexError`
    whatever the command code, code 0 included.
  - An index from -12 to -1 counts from the end of the list instead of
    failing.

  Command codes other than 1 and 2 are no-ops, as in `order`.
- Flipping a view twice is not the identity. The first flip of a Red view
  yields a team-1 view, and `flip_board_view` returns a team-1 view unchanged,
  so the learned controllers' own re-flip is a no-op
  (`Perspective.FlipOfFlipIsFlip`). The unconditional relabelling is the
  involution (`Perspective.RelabelInvolution`).
- The engine's `upgrade` ignores the target index. An upgrade order with any
  target is therefore accepted when its subject may be upgraded, while the
  masks only ever offer the diagonal slot `288 + 13s`.

## Model

| member | source | states |
|---|---|---|
| Board.InitialFortresses | src/tcg/game.py:48-61 | the twelve starting records satisfy the fortress invariant; Red holds fortress 1, Blue fortress 10, every other fortress is neutral |
| Board.Half | src/tcg/game.py:206-208 | `p // 2` on a non-negative count is the integer r with r ≤ p/2 < r + 1 |
| Board.Cost | src/tcg/game.py:214-219 | the upgrade price `fortress_limit[level] // 2` is the largest r with 2r ≤ capacity |
| Perspective.SwapTeam | src/tcg/utils.py:6-8 | the result is a valid team; it is 0 exactly for 0, 1 exactly for 2, and 2 for everything else |
| Perspective.SwapTeamInvolution | src/tcg/utils.py:6-8 | relabelling twice gives every team id 0..2 back, and only neutral is a fixed point |
| Perspective.FlipFortresses | src/tcg/utils.py:19-25 | fortress i of the flipped view has the kind, level, pawns and timer of fortress swapL[i], its owner relabelled, and the neighbour list found at i |
| Perspective.FlipMoving | src/tcg/utils.py:28-37 | moving pawns keep count, order, kind and position; team relabelled, endpoints mapped through swapD |
| Perspective.FlipSpawning | src/tcg/utils.py:40-50 | batches keep count, order, kind, remaining pawns and spawn point; team relabelled, endpoints mapped through swapD |
| Perspective.Relabel | src/tcg/utils.py:18-52 | the relabelled view's team is the swapped team, the done flag is kept, and every index stays on the board |
| Perspective.FlipBoardView | src/tcg/utils.py:11-52 | a team-1 view is returned unchanged, a team-2 view becomes a team-1 view, and any other view is relabelled |
| Perspective.RelabelKeepsOk | src/tcg/utils.py:18-50 | relabelling keeps the fortress, pawn and batch invariants |
| Perspective.RelabelInvolution | src/tcg/utils.py:11-52 | relabelling a view twice gives it back, given the index maps are involutions and all team ids are 0..2 |
| Perspective.FlipOfFlipIsFlip | src/tcg/utils.py:15-16 | flipping a team-1 or team-2 view yields team 1, so a second flip changes nothing |
| Engine.Deliver | src/tcg/game.py:195-208 | succeeds iff the guard holds, and then appends exactly one batch; the batch holds floor(p/2) ≥ 1 pawns of the origin's kind and team; that count plus the pawns left equals p, and at least p/2 stay; only the origin's pawn count changes; a failed guard changes nothing |
| Engine.Upgrade | src/tcg/game.py:210-219 | changes the board iff owner, price, idle timer and level 1..4 all hold; then the timer is set to 200 and the price is paid, leaving pawns non-negative; only the subject changes; level 5 is always refused |
| Engine.ApplyOrder | src/tcg/game.py:297-304 | the state changes iff the order's guard holds; code 0 and unknown codes are no-ops |
| Engine.CheckUpgrade | src/tcg/game.py:221-228 | a positive timer drops by exactly 1; a timer of 0 becomes -1 and the level rises by exactly 1; an idle fortress is untouched; owner, kind, pawns and neighbours never change |
| Engine.UpgradeTakes201Ticks | src/tcg/game.py:218-228 | an upgrade started now keeps its level for 200 countdown ticks while the timer runs down, and the 201st tick raises the level by one and clears the timer |
| Engine.RunDown | src/tcg/game.py:221-228 | a running timer t counts down to 0 in t ticks and finishes on tick t + 1 |
| Engine.Production | src/tcg/game.py:177-185 | only pawn counts change; a count changes iff it is the (kind, level) production tick and the count is below capacity, neutral fortresses included; a changed count is the old count plus one or else capacity, whichever is smaller, so it never passes capacity |
| Engine.Decay | src/tcg/game.py:187-193 | on a multiple of 40 a fortress above capacity loses exactly one pawn and stays above capacity − 1; every other fortress, and every fortress on other ticks, is unchanged |
| Engine.Released | src/tcg/game.py:232-249 | a tick releases no more pawns than there are batches, and every released pawn is born on this tick and carries the place of a batch of the list; which pawns they are is `Engine.ReleasedExactly` |
| Engine.ReleasedFromReleasing | src/tcg/game.py:232-249 | every released pawn is the pawn of a batch whose turn it is, with that batch's team, kind, endpoints and spawn point |
| Engine.ReleasingIsReleased | src/tcg/game.py:232-249 | every batch whose turn it is contributes its pawn |
| Engine.ReleasedInOrder | src/tcg/game.py:232-249 | released pawns come in batch order |
| Engine.ReleasedExactly | src/tcg/game.py:232-249 | the pawns a tick releases are exactly one per batch whose turn it is, in batch order, with that batch's data, and no two are equal |
| Engine.CountDownAll | src/tcg/game.py:232-249 | a batch whose release tick it is, with pawns left, counts down by exactly one; every other batch is unchanged; only counts change |
| Engine.FirstExhausted | src/tcg/game.py:251-254 | the position of the first batch with no pawns left, every earlier batch still holding pawns |
| Engine.RemoveFirstExhausted | src/tcg/game.py:251-254 | only the first exhausted batch is removed, the others keep their order; nothing is removed when none is exhausted |
| Engine.Departure | src/tcg/game.py:230-254 | released pawns are appended to the moving list in batch order; the batch list shrinks by at most one |
| Engine.Damage | src/tcg/game.py:287-290 | a hostile kind-0 pawn deals 0.65, a kind-1 pawn 0.95 |
| Engine.Arrive | src/tcg/game.py:281-294 | only the target changes; a friendly pawn adds exactly 1; a hostile pawn subtracts its damage; ownership changes iff the result is below 0, and then the fortress becomes the pawn's at level 1, 0 pawns, idle timer, same kind and neighbours; otherwise pawns stay non-negative |
| Engine.Arrivals | src/tcg/game.py:271-276 | a pawn is in the arrival list iff it is moving and reported as arrived |
| Engine.Staying | src/tcg/game.py:271-279 | a pawn is left walking iff it is moving and not reported as arrived |
| Engine.ArriveAll | src/tcg/game.py:278-279 | resolving the arrival list keeps the board at twelve fortresses and leaves every fortress that no arriving pawn targets unchanged |
| Engine.PawnMove | src/tcg/game.py:256-279 | arrival resolution keeps the board at twelve fortresses; its effect on the moving list is `Engine.PawnMoveRemovesArrivals` |
| Engine.RemovingArrivalsLeavesStaying | src/tcg/game.py:295 | removing each arrival by value, first occurrence first, leaves exactly the non-arrived pawns in their original order |
| Engine.ArriveAllMoving | src/tcg/game.py:278-295 | the arrival loop's effect on the moving list is the by-value removal of every arrival |
| Engine.PawnMoveRemovesArrivals | src/tcg/game.py:271-295 | after arrival resolution the moving list is exactly the non-arrived pawns in order, and arrivals plus survivors account for every pawn |
| Engine.NoneArrive | src/tcg/game.py:271-279 | when no moving pawn is reported, nothing arrives and every pawn keeps walking |
| Engine.OnePawnArrives | src/tcg/game.py:271-279 | in a list of distinct pawns, reporting one pawn makes exactly that pawn arrive while all others keep walking in order |
| Engine.StayingDistinct | src/tcg/game.py:271-279 | the pawns left walking stay pairwise distinct |
| Engine.PartitionSizes | src/tcg/game.py:271-276 | every moving pawn is either in the arrival list or left walking |
| Engine.CountTeam | src/tcg/game.py:310-314 | a team's fortress count is at most the number of fortresses, and it is zero iff the team holds no fortress |
| Engine.CheckGameOver | src/tcg/game.py:306-328 | counts team-1 and team-2 fortresses; winner Both iff equal, Red iff Red leads, Blue iff Blue leads; over iff either count is 0 |
| Engine.CountsAddUp | src/tcg/game.py:310-314 | neutral, Blue and Red fortress counts add up to the board size |
| Engine.TallyOfFullBoard | src/tcg/game.py:306-328 | the two counts add to at most 12; a side holding all twelve wins and ends the match; with no neutral fortress left the counts add to 12 |
| Engine.InitialGame | src/tcg/game.py:48-77 | the starting match satisfies the invariant, starts at step 0 with no batches or pawns in flight, has Red (team 2) at fortress 1 and Blue (team 1) at fortress 10, and has no end flag set |
| Engine.InitialNotOver | src/tcg/game.py:306-328 | a board where fortress 1 is Red's and fortress 10 is Blue's, as at the start, is not over under the end-of-game test |
| Engine.Unflip | src/tcg/game.py:380-382 | Red's command keeps its code and has subject and target mapped back through swapL |
| Engine.Views | src/tcg/game.py:370-375 | Blue sees the board as it is, Red the relabelled team-2 view, which is a team-1 view |
| Engine.Orders | src/tcg/game.py:370-382 | Blue's command is its controller's answer on the board; Red's is its controller's answer on the relabelled view, mapped back through swapL |
| Engine.Commands | src/tcg/game.py:384-385 | applying Blue's command, then Red's, keeps the board's shape and the batches' indices |
| Engine.Upkeep | src/tcg/game.py:388-392 | production, decay on every 40th tick, and the countdown keep twelve fortresses |
| Engine.Tick | src/tcg/game.py:367-397 | the tick counter advances by one; the done flag is the tally after arrivals or the last tick before the ceiling; winner and counts are the late tally; the loop-over flag is set when the late tally ends the match |
| Engine.Advance | src/tcg/game.py:353-361 | a halted match stays halted, is marked over, and keeps its board, batches, pawns, tick counter and winner; a running match advances one tick, is not marked over, sets the loop-over flag exactly when the late tally ends it, and sets done from the tally after arrivals or the tick ceiling |
| Engine.HaltedIsSticky | src/tcg/game.py:353-361 | after a halted match is marked over, any further iteration, whatever the arrival report and controllers, returns the same game |
| Engine.ArriveShaped | src/tcg/game.py:281-294 | arrival keeps kinds in 0..1 and levels in 1..5 |
| Engine.ArriveAllShaped | src/tcg/game.py:278-279 | the arrival loop keeps kinds in 0..1 and levels in 1..5 |
| Engine.PawnMoveShaped | src/tcg/game.py:256-295 | arrival resolution keeps fortress shape and on-board pawn endpoints |
| Engine.ApplyOrderShaped | src/tcg/game.py:297-304 | a command keeps fortress shape and on-board batch endpoints |
| EngineProofs.ArriveKeepsOk | src/tcg/game.py:281-294 | an arrival keeps every fortress's invariant, so no pawn count goes negative |
| EngineProofs.ArriveAllKeepsOk | src/tcg/game.py:278-279 | the arrival loop keeps every fortress's invariant |
| EngineProofs.PawnMoveKeepsOk | src/tcg/game.py:256-295 | arrival resolution keeps the fortress and pawn invariants |
| EngineProofs.ApplyOrderKeepsOk | src/tcg/game.py:195-219 | a command keeps the fortress and batch invariants: a deploy leaves pawns behind, an upgrade is paid from pawns present and starts only below level 5 |
| EngineProofs.CountDownAllKeepsOk | src/tcg/game.py:232-249 | counting down keeps batch counts non-negative |
| EngineProofs.ReleasedOk | src/tcg/game.py:232-249 | released pawns carry valid teams, kinds and on-board endpoints |
| EngineProofs.DepartureKeepsOk | src/tcg/game.py:230-254 | departure keeps the batch and pawn invariants |
| EngineProofs.ProductionKeepsOk | src/tcg/game.py:177-185 | production keeps every fortress's invariant |
| EngineProofs.DecayKeepsOk | src/tcg/game.py:187-193 | decay keeps pawns non-negative and every other field's invariant, since capacities are positive |
| EngineProofs.CheckUpgradeKeepsOk | src/tcg/game.py:221-228 | the countdown keeps level 1..5 and timer −1 or 0..200, because upgrades start only below level 5 |
| EngineProofs.UpkeepKeepsOk | src/tcg/game.py:388-392 | production, decay and countdown keep level 1..5, timer −1 or 0..200, and pawns non-negative |
| EngineProofs.CommandsKeepOk | src/tcg/game.py:384-385 | both commands together keep the fortress and batch invariants |
| Engine.AfterOrders | src/tcg/game.py:384-397 | the second half of a tick advances the step by one, keeps the done and game-over flags it is given, reports winner and counts from the late tally of the resulting board, and sets the loop-over flag exactly when it was set or that tally ends the match |
| EngineProofs.AfterOrdersKeepsInv | src/tcg/game.py:384-397 | executing both orders, departures, production, decay and upgrade countdowns keeps the match invariant |
| EngineProofs.DepartureKeepsDistinct | src/tcg/game.py:230-254 | after departure the pawns in flight are still pairwise distinct and all born before the next tick |
| EngineProofs.PawnMoveKeepsDistinct | src/tcg/game.py:256-279 | after arrival resolution the pawns in flight are still pairwise distinct and born before the current tick |
| EngineProofs.AnyPawnArrivesAlone | src/tcg/game.py:256-279 | in every valid match any single pawn in flight can arrive on its own: it alone is resolved against its target, and every other pawn keeps walking in order |
| EngineProofs.TickKeepsInv | src/tcg/game.py:367-397 | whatever the controllers answer and whichever pawns arrive, a tick keeps the match invariant, including that the pawns in flight are pairwise distinct |
| EngineProofs.InvIsShaped | src/tcg/game.py:367-397 | a match satisfying the invariant has the shape a tick needs |
| EngineProofs.Run | src/tcg/game.py:352-397 | any number of consecutive ticks keeps the match invariant |
| EngineProofs.CountDownReleases | src/tcg/game.py:232-249 | pawns still in batches plus pawns released this tick equal the pawns in batches before |
| EngineProofs.RemoveExhaustedKeepsSum | src/tcg/game.py:251-254 | removing an exhausted batch loses no pawns |
| EngineProofs.DepartureConserves | src/tcg/game.py:230-254 | departure neither creates nor destroys pawns: pawns in batches plus pawns on the road are unchanged |
| EngineProofs.DrainConserves | src/tcg/game.py:230-254 | over any number of ticks a batch's count stays non-negative, released plus remaining equals its initial count, and nothing else about it changes |
| EngineProofs.DrainSplit | src/tcg/game.py:230-254 | draining m ticks and then n more is the same as draining m + n |
| EngineProofs.NextReleaseTick | src/tcg/game.py:235-243 | a release tick of either kind comes within one period |
| EngineProofs.ReleaseBy | src/tcg/game.py:232-249 | a batch with pawns left that meets a release tick has released at least one pawn |
| EngineProofs.OnePeriodReleases | src/tcg/game.py:232-249 | within one period a batch with pawns left releases at least one |
| EngineProofs.DrainCompletes | src/tcg/game.py:230-254 | after one period per pawn a batch has released exactly its initial count and is exhausted |
| EngineProofs.FiveHitsCapture | src/tcg/game.py:281-295 | a fortress holding 3 pawns survives four hostile kind-0 hits with 0.4 left and falls to the fifth, becoming the attacker's at level 1 with 0 pawns and no upgrade |
| ActionCodec.Decode | src/tcg/players/player_kishida_counter/ONCT.py:154-169 | slots below 144 wait; 144..287 deploy and 288.. upgrade, with the slot equal to base + 12·subject + target and target in 0..11; every slot below 432 decodes to on-board indices; the PPO, defensive and gym controllers repeat this decoding |
| ActionCodec.DecodeEncode | src/tcg/players/player_kishida_counter/ONCT.py:154-169 | decoding the slot of any wait, deploy or upgrade triple on the board gives the triple back, and that slot lies in 0..431 |
| ActionCodec.EncodeDecode | src/tcg/players/defensive_player.py:108-122 | every slot that is not one of the unused 1..143 is the encoding of its decoding |
| ActionCodec.SlotCases | src/tcg/players/player_kishida_counter/ONCT.py:54-95 | every slot is the wait slot, an unused slot, or the deploy or upgrade slot of a board pair |
| ActionCodec.Mask | src/tcg/players/player_kishida_counter/ONCT.py:51-97 | length 432; slot 0 always offered; 1..143 never; deploy slot (s,t) iff owner 1, at least two pawns, and t reachable; upgrade slot (s,t) iff t = s, owner 1, level below 5, the price at hand, and no upgrade running; the PPO, defensive and gym controllers build the same mask |
| ActionCodec.MaskSpecUnique | src/tcg/players/player_kishida_counter/ONCT.py:51-97 | the slot-by-slot description determines the mask completely |
| ActionCodec.BuildMask | src/tcg/players/defensive_player.py:45-74 | the two loops of `action_masks`, setting deploy slots and then diagonal upgrade slots, compute exactly the mask |
| ActionCodec.MaskMatchesGuards | src/tcg/game.py:195-219 | on team 1's board a deploy slot is offered iff the deploy guard holds, and a diagonal upgrade slot iff the upgrade guard holds |
| ActionCodec.MaskedIffAccepted | src/tcg/defensive_gym_env.py:56-112 | every offered non-wait slot decodes to an order the engine accepts for team 1; every accepted deploy is offered at its own slot, and every accepted upgrade at its subject's diagonal slot |
| ActionCodec.FlippedMaskMatchesRed | src/tcg/game.py:371-385 | on Red's relabelled view, the deploy slot of the mapped pair is offered iff Red may deploy on the board, and the mapped diagonal upgrade slot iff Red may upgrade; every offered non-wait slot, decoded and mapped back, is accepted for team 2 |
| Onct.Update | src/tcg/players/player_kishida_counter/ONCT.py:134-169 | waits without a model; otherwise a choice below 144 is a wait, any other choice is the command that re-encodes to it, and an offered non-wait choice is accepted for team 1 on the flipped view |
| Onct.RedSeatAccepted | src/tcg/game.py:373-385 | seated as Red, an offered non-wait choice becomes, after the engine maps it back, an order accepted for team 2 on the board |
| MlPlayer.Update | src/tcg/players/player_kishida_mlppo/ml_player.py:87-158 | the command code follows the chosen slot's range; for a team-2 caller, a wait slot gives code 0 with subject and target both `swapL[0]`, and on a deploy or upgrade slot the subject and target, mapped back through swapL, re-encode to the chosen slot; a team-1 caller gets the decoded command unchanged |
| MlPlayer.SeatIndependent | src/tcg/players/player_kishida_mlppo/ml_player.py:152-158 | asked directly with a raw team-2 view, it returns the same board command as when it is handed the relabelled view and the engine maps the answer back |
| MlPlayer.RawRedAccepted | src/tcg/players/player_kishida_mlppo/ml_player.py:87-158 | asked directly as team 2, an offered non-wait choice yields an order accepted for team 2 on the board |
| DefensivePlayer.Update | src/tcg/players/defensive_player.py:100-122 | waits without a model; otherwise a choice below 144 is a wait, and any other choice is the command that re-encodes to it, a deploy exactly for 144..287 |
| DefensivePlayer.SameAsOnct | src/tcg/players/defensive_player.py:100-122 | given the same policy and view, it issues the same command as the counter-strategy controller |
| DefensiveGym.ActionMasks | src/tcg/defensive_gym_env.py:56-81 | the mask of the game's own fortress table meets the slot-by-slot description |
| DefensiveGym.StepAction | src/tcg/defensive_gym_env.py:96-112 | slots below 144 give the wait triple; any other slot gives the command that re-encodes to it, a deploy exactly below 288 |
| DefensiveGym.MaskedActionsTakeEffect | src/tcg/defensive_gym_env.py:56-112 | on the masked state, slot 0 changes nothing and any other offered slot changes the state; every order the engine would carry out for team 1 has an offered slot with the same effect |

## Left out

- Rendering and the event loop: drawing, window events, the background colour and frame pacing (src/tcg/game.py:79-175, 330-337, 399-437). They are display and I/O.
- The outer loop of `run` is left out beyond its inner guard (`Engine.Advance`). This covers the printing, the `STEPLIMIT` check at line 343, and the game-over check after each frame at line 439. It is loop plumbing around the modelled tick.
- Pawn geometry: positions are never advanced and the arrival test at radius 45 is not modelled. This is floating-point geometry. Which pawns arrive on a tick is a parameter (`arrived`), a set of pawn records, and removal matches by value, like Python's `list.remove`. In the source the jittered, advancing position tells pawns apart. In the model each pawn carries its release tick and its batch's place in the list instead (`born`, `slot`). `Engine.Inv` keeps the pawns in flight pairwise distinct, so any single pawn can be reported on its own (`EngineProofs.AnyPawnArrivesAlone`). The model does not tie the report to travel times, so it also admits reports the geometry would never give, for example a pawn arriving on the tick it is released.
- The release jitter (`random.random()`): released pawns start at their batch's spawn point. The spawn point itself (fortress position plus 42 times the direction) is the precomputed table `Config.spawn`. This is randomness and floating point.
- Floating-point rounding: pawn counts are exact reals. The source's float arithmetic may round 0.65 and 0.95 differently from exact arithmetic.
- The contents of the configuration tables, which are not part of this model. They are parameters, constrained by `Board.ValidConfig` and `Board.SymmetricBoard`.
- Model loading, `model.predict` and the observation vectors of the learned controllers and the gym environment. The policy is a function parameter of `ActionCodec.Policy` that sees the flipped view and the mask. It is assumed to return a slot in 0..431. These are foreign library calls and floating point.
- The case of `MlPlayer` failing to load its model (`self.model = None` followed by a call on it) is left out; it is an attribute error in the source.
- Reward shaping, the 40-tick stepping of the gym environment and the training and tournament scripts. They are training plumbing and floating point.
- Scripted strategy controllers. They are external command producers. Any controller is a function parameter of `Engine.Tick`.
- Controller aliasing: `run` hands controllers live references to its lists. Controllers are modelled as pure functions of a snapshot.
- Engine.PawnMove: its own contract states only the board size. Its effect on the moving list is stated by `Engine.PawnMoveRemovesArrivals`, and its effect on the invariants by `EngineProofs.PawnMoveKeepsOk`.
- Fortress indices outside 0..11 are excluded by `Engine.BoardOrder`. This covers indices of 12 or more, which raise `IndexError` in some of the cases listed above and are silent no-ops in the others, and indices from -12 to -1, which Python would read from the end of the list. The learned controllers never produce them.
- Engine.Departure: its contract relates the result to `Engine.CountDownAll`, `Engine.RemoveFirstExhausted` and `Engine.Released`. Pawn conservation is the separate lemma `EngineProofs.DepartureConserves`.

=== FILE: action_codec.dfy ===
/**
 The 432-slot action layout shared by the learned controllers and the gym
 environment: slot 0 waits, slot 144 + 12*s + t deploys from `s` to `t`, slot
 288 + 12*s + t upgrades `s` (only the diagonal t == s is ever offered), and
 slots 1..143 are unused. The legality mask marks the slots whose command the
 engine would accept for team 1.
 */
module ActionCodec {
  import opened Board
  import opened Engine
  import opened Perspective

  const NumActions := 432
  const MoveBase := 144
  const UpgradeBase := 288

  /** An index of the discrete action space. */
  type Action = a: int | 0 <= a < NumActions

  /** A learned controller's policy: absent, or a deterministic choice of an
      action from the (team-1) view and the legality mask. */
  datatype Policy = NoModel | Loaded(predict: (Info, seq<bool>) -> Action)

  function MoveAction(s: int, t: int): int {
    MoveBase + 12 * s + t
  }

  function UpgradeAction(s: int, t: int): int {
    UpgradeBase + 12 * s + t
  }

  /** The slot of a command triple. It undoes `Decode` on slot 0 and on every
      slot from 144 up, and `Decode` undoes it on wait, deploy and upgrade
      triples on the board (`EncodeDecode`, `DecodeEncode`). */
  function Encode(o: Order): int {
    144 * o.command + 12 * o.subject + o.target
  }

  /** The decoding of an action index into a command triple: slots below 144
      wait, the next 144 deploy, the rest upgrade; subject and target are the
      quotient and remainder of the offset by 12. */
  function Decode(a: int): (o: Order)
    ensures a < MoveBase ==> o == Wait
    ensures MoveBase <= a < UpgradeBase ==> o.command == 1 && a == MoveAction(o.subject, o.target)
    ensures a >= UpgradeBase ==> o.command == 2 && a == UpgradeAction(o.subject, o.target)
    ensures a >= MoveBase ==> 0 <= o.subject && 0 <= o.target < Size && Encode(o) == a
    ensures 0 <= a < NumActions ==> 0 <= o.subject < Size && 0 <= o.target < Size
  {
    if a == 0 then Wait
    else if a < MoveBase then Wait
    else if a < UpgradeBase then Order(1, (a - MoveBase) / 12, (a - MoveBase) % 12)
    else Order(2, (a - UpgradeBase) / 12, (a - UpgradeBase) % 12)
  }

  /** Encoding then decoding gives back every deploy, upgrade and wait triple. */
  lemma DecodeEncode(o: Order)
    requires o == Wait || ((o.command == 1 || o.command == 2) && 0 <= o.subject < Size && 0 <= o.target < Size)
    ensures Decode(Encode(o)) == o
    ensures 0 <= Encode(o) < NumActions
  {
    if o != Wait {
      var a := Encode(o);
      var d := Decode(a);
      assert 12 * d.subject + d.target == 12 * o.subject + o.target;
      SlotInjective(d.subject, d.target, o.subject, o.target);
    }
  }

  /** Decoding then encoding gives back every slot that is not one of the unused 1..143. */
  lemma EncodeDecode(a: int)
    requires a == 0 || a >= MoveBase
    ensures Encode(Decode(a)) == a
  {
  }

  /** Distinct (subject, target) pairs occupy distinct slots. */
  lemma SlotInjective(s: int, t: int, s': int, t': int)
    requires 0 <= t < 12 && 0 <= t' < 12 && 12 * s + t == 12 * s' + t'
    ensures s == s' && t == t'
  {
  }

  /** Every slot is the wait slot, an unused slot, or a deploy or upgrade slot of a board pair. */
  lemma SlotCases(a: Action) returns (s: Index, t: Index)
    ensures a == 0 || (1 <= a < MoveBase) || a == MoveAction(s, t) || a == UpgradeAction(s, t)
    ensures MoveBase <= a < UpgradeBase ==> a == MoveAction(s, t)
    ensures UpgradeBase <= a ==> a == UpgradeAction(s, t)
  {
    var o := Decode(a);
    if a >= MoveBase {
      s, t := o.subject, o.target;
    } else {
      s, t := 0, 0;
    }
  }

  // ---------------------------------------------------------------------------
  // The legality mask

  /** Deploy slot condition: owned by team 1, at least two pawns, target reachable. */
  predicate MoveLegal(cfg: Config, state: seq<Fortress>, s: Index, t: Index)
    requires ValidConfig(cfg) && |state| == Size
  {
    state[s].team == 1 && state[s].pawns >= 2.0 && cfg.adj[s][t]
  }

  /** Upgrade slot condition: owned by team 1, below level 5, affordable, not upgrading. */
  predicate UpgradeLegal(cfg: Config, state: seq<Fortress>, s: Index)
    requires ValidConfig(cfg) && FortressesShaped(state)
  {
    && state[s].team == 1
    && state[s].level < 5
    && state[s].pawns >= Cost(cfg, state[s].level) as real
    && state[s].timer == -1
  }

  /** What a mask must satisfy, slot by slot. */
  predicate MaskSpec(cfg: Config, state: seq<Fortress>, m: seq<bool>)
    requires ValidConfig(cfg) && FortressesShaped(state)
  {
    && |m| == NumActions
    && m[0]
    && (forall a :: 1 <= a < MoveBase ==> !m[a])
    && (forall s, t :: 0 <= s < Size && 0 <= t < Size ==> (m[MoveAction(s, t)] <==> MoveLegal(cfg, state, s, t)))
    && (forall s, t :: 0 <= s < Size && 0 <= t < Size ==> (m[UpgradeAction(s, t)] <==> s == t && UpgradeLegal(cfg, state, s)))
  }

  function Slot(cfg: Config, state: seq<Fortress>, a: Action): bool
    requires ValidConfig(cfg) && FortressesShaped(state)
  {
    var o := Decode(a);
    || a == 0
    || (o.command == 1 && MoveLegal(cfg, state, o.subject, o.target))
    || (o.command == 2 && o.subject == o.target && UpgradeLegal(cfg, state, o.subject))
  }

  /** `action_masks`: wait is always offered; deploy slot (s, t) is offered iff
      team 1 owns `s`, which holds at least two pawns, and `t` is reachable;
      upgrade slot (s, s) is offered iff team 1 owns `s`, below level 5, with the
      cost at hand and no upgrade running; nothing else is offered. */
  function Mask(cfg: Config, state: seq<Fortress>): (m: seq<bool>)
    requires ValidConfig(cfg) && FortressesShaped(state)
    ensures MaskSpec(cfg, state, m)
  {
    var m := seq(NumActions, a requires 0 <= a < NumActions => Slot(cfg, state, a));
    forall s, t | 0 <= s < Size && 0 <= t < Size
      ensures m[MoveAction(s, t)] <==> MoveLegal(cfg, state, s, t)
      ensures m[UpgradeAction(s, t)] <==> s == t && UpgradeLegal(cfg, state, s)
    {
      DecodeEncode(Order(1, s, t));
      DecodeEncode(Order(2, s, t));
    }
    m
  }

  /** Two masks that meet the slot-by-slot description are equal. */
  lemma MaskSpecUnique(cfg: Config, state: seq<Fortress>, m1: seq<bool>, m2: seq<bool>)
    requires ValidConfig(cfg) && FortressesShaped(state)
    requires MaskSpec(cfg, state, m1) && MaskSpec(cfg, state, m2)
    ensures m1 == m2
  {
    forall a | 0 <= a < NumActions
      ensures m1[a] == m2[a]
    {
      var s, t := SlotCases(a);
    }
  }

  /** The mask as the controllers build it: two loops over the board setting
      deploy slots and then diagonal upgrade slots. */
  method BuildMask(cfg: Config, state: seq<Fortress>) returns (m: seq<bool>)
    requires ValidConfig(cfg) && FortressesShaped(state)
    ensures m == Mask(cfg, state)
  {
    m := seq(NumActions, _ => false);
    m := m[0 := true];
    var s := 0;
    while s < Size
      invariant 0 <= s <= Size && |m| == NumActions && m[0]
      invariant forall a :: 1 <= a < MoveBase || UpgradeBase <= a < NumActions ==> !m[a]
      invariant forall s', t' :: 0 <= s' < Size && 0 <= t' < Size ==>
        (m[MoveAction(s', t')] <==> s' < s && MoveLegal(cfg, state, s', t'))
    {
      if state[s].team == 1 && state[s].pawns >= 2.0 {
        var t := 0;
        while t < Size
          invariant 0 <= t <= Size && |m| == NumActions && m[0]
          invariant forall a :: 1 <= a < MoveBase || UpgradeBase <= a < NumActions ==> !m[a]
          invariant forall s', t' :: 0 <= s' < Size && 0 <= t' < Size ==>
            (m[MoveAction(s', t')] <==> (s' < s || (s' == s && t' < t)) && MoveLegal(cfg, state, s', t'))
        {
          if cfg.adj[s][t] {
            forall s', t' | 0 <= s' < Size && 0 <= t' < Size && MoveAction(s', t') == MoveAction(s, t)
              ensures s' == s && t' == t
            {
              SlotInjective(s', t', s, t);
            }
            m := m[MoveAction(s, t) := true];
          }
          t := t + 1;
        }
      }
      s := s + 1;
    }
    s := 0;
    while s < Size
      invariant 0 <= s <= Size && |m| == NumActions && m[0]
      invariant forall a :: 1 <= a < MoveBase ==> !m[a]
      invariant forall s', t' :: 0 <= s' < Size && 0 <= t' < Size ==>
        (m[MoveAction(s', t')] <==> MoveLegal(cfg, state, s', t'))
      invariant forall s', t' :: 0 <= s' < Size && 0 <= t' < Size ==>
        (m[UpgradeAction(s', t')] <==> s' < s && s' == t' && UpgradeLegal(cfg, state, s'))
    {
      if state[s].team == 1 && state[s].level < 5 && state[s].pawns >= Cost(cfg, state[s].level) as real && state[s].timer == -1 {
        forall s', t' | 0 <= s' < Size && 0 <= t' < Size && UpgradeAction(s', t') == UpgradeAction(s, s)
          ensures s' == s && t' == s
        {
          SlotInjective(s', t', s, s);
        }
        m := m[UpgradeAction(s, s) := true];
      }
      s := s + 1;
    }
    MaskSpecUnique(cfg, state, m, Mask(cfg, state));
  }

  // ---------------------------------------------------------------------------
  // The mask against the engine's guards

  /** For team 1's own board, a deploy slot is offered exactly when the
      engine's deploy guard holds and an upgrade slot exactly when its upgrade
      guard holds. */
  lemma MaskMatchesGuards(cfg: Config, fs: seq<Fortress>)
    requires ValidConfig(cfg) && FortressesShaped(fs)
    ensures forall s, t :: 0 <= s < Size && 0 <= t < Size ==>
      (Mask(cfg, fs)[MoveAction(s, t)] <==> CanDeliver(cfg, fs, 1, s, t))
    ensures forall s :: 0 <= s < Size ==>
      (Mask(cfg, fs)[UpgradeAction(s, s)] <==> CanUpgrade(cfg, fs, 1, s))
  {
  }

  /** Every offered slot other than wait decodes to a command the engine
      accepts for team 1, and every command the engine would accept from team
      1 has an offered slot (for an upgrade, the diagonal slot of its subject,
      since the engine ignores an upgrade's target). */
  lemma MaskedIffAccepted(cfg: Config, fs: seq<Fortress>)
    requires ValidConfig(cfg) && FortressesShaped(fs)
    ensures forall a: Action :: a != 0 && Mask(cfg, fs)[a] ==> Accepted(cfg, fs, 1, Decode(a))
    ensures forall o: BoardOrder :: Accepted(cfg, fs, 1, o) && o.command == 1 ==> Mask(cfg, fs)[Encode(o)]
    ensures forall o: BoardOrder :: Accepted(cfg, fs, 1, o) && o.command == 2 ==> Mask(cfg, fs)[UpgradeAction(o.subject, o.subject)]
  {
    var m := Mask(cfg, fs);
    forall a: Action | a != 0 && m[a]
      ensures Accepted(cfg, fs, 1, Decode(a))
    {
      var s, t := SlotCases(a);
      DecodeEncode(Order(1, s, t));
      DecodeEncode(Order(2, s, t));
    }
    forall o: BoardOrder | Accepted(cfg, fs, 1, o) && o.command == 1
      ensures m[Encode(o)]
    {
      assert Encode(o) == MoveAction(o.subject, o.target);
    }
  }

  /** Red's side: on the flipped view handed to team 2, the deploy slot of the
      flipped pair (swapL[s], swapL[t]) is offered exactly when the engine would
      let team 2 deploy from `s` to `t` on the board, the diagonal upgrade slot
      of swapL[s] exactly when team 2 may upgrade `s`, and so every offered
      non-wait slot, decoded and mapped back through swapL, is accepted for
      team 2. This needs the reachability table to be symmetric under swapL. */
  lemma FlippedMaskMatchesRed(cfg: Config, fs: seq<Fortress>)
    requires ValidConfig(cfg) && SymmetricBoard(cfg) && FortressesShaped(fs)
    ensures FortressesShaped(FlipFortresses(cfg, fs))
    ensures forall s, t :: 0 <= s < Size && 0 <= t < Size ==>
      (Mask(cfg, FlipFortresses(cfg, fs))[MoveAction(cfg.swapL[s], cfg.swapL[t])] <==> CanDeliver(cfg, fs, 2, s, t))
    ensures forall s :: 0 <= s < Size ==>
      (Mask(cfg, FlipFortresses(cfg, fs))[UpgradeAction(cfg.swapL[s], cfg.swapL[s])] <==> CanUpgrade(cfg, fs, 2, s))
    ensures forall a: Action :: a != 0 && Mask(cfg, FlipFortresses(cfg, fs))[a] ==>
      Accepted(cfg, fs, 2, Unflip(cfg, Decode(a)))
  {
    var v := FlipFortresses(cfg, fs);
    var m := Mask(cfg, v);
    forall s, t | 0 <= s < Size && 0 <= t < Size
      ensures m[MoveAction(cfg.swapL[s], cfg.swapL[t])] <==> CanDeliver(cfg, fs, 2, s, t)
      ensures s == t ==> (m[UpgradeAction(cfg.swapL[s], cfg.swapL[s])] <==> CanUpgrade(cfg, fs, 2, s))
    {
      FlippedSlot(cfg, fs, s, t);
    }
    forall a: Action | a != 0 && m[a]
      ensures Accepted(cfg, fs, 2, Unflip(cfg, Decode(a)))
    {
      var s', t' := SlotCases(a);
      var s, t := cfg.swapL[s'], cfg.swapL[t'];
      assert cfg.swapL[s] == s' && cfg.swapL[t] == t';
      DecodeEncode(Order(1, s', t'));
      DecodeEncode(Order(2, s', t'));
      FlippedSlot(cfg, fs, s, t);
    }
  }

  /** One pair of `FlippedMaskMatchesRed`. */
  lemma FlippedSlot(cfg: Config, fs: seq<Fortress>, s: Index, t: Index)
    requires ValidConfig(cfg) && SymmetricBoard(cfg) && FortressesShaped(fs)
    ensures FortressesShaped(FlipFortresses(cfg, fs))
    ensures Mask(cfg, FlipFortresses(cfg, fs))[MoveAction(cfg.swapL[s], cfg.swapL[t])] <==> CanDeliver(cfg, fs, 2, s, t)
    ensures s == t ==> (Mask(cfg, FlipFortresses(cfg, fs))[UpgradeAction(cfg.swapL[s], cfg.swapL[s])] <==> CanUpgrade(cfg, fs, 2, s))
  {
    var v := FlipFortresses(cfg, fs);
    var s', t' := cfg.swapL[s], cfg.swapL[t];
    assert cfg.swapL[s'] == s;
    assert cfg.adj[s'][t'] == cfg.adj[s][t];
    assert v[s'].team == 1 <==> fs[s].team == 2;
  }
}

=== FILE: board.dfy ===
/**
 The board of Fortress Conquest: the fortress record, the two kinds of pawns in
 flight, the static configuration tables and the invariants the engine keeps.

 Team ids are 0 (neutral), 1 (Blue, the bottom player) and 2 (Red, the top
 player). Kinds are 0 and 1, levels 1..5. An upgrade timer of -1 means "no
 upgrade in progress".
 */
module Board {

  /** Number of fortresses on the fixed map. */
  const Size := 12

  /** Ticks an upgrade takes once started. */
  const UpgradeTicks := 200

  /** Interval, in ticks, of the decay of over-capacity fortresses. */
  const DecayPeriod := 40

  /** A fortress index. */
  type Index = i: int | 0 <= i < Size

  /** A point of the playing field; the model carries positions but never inspects them. */
  datatype Point = Point(x: real, y: real)

  /** One fortress: owner, kind, level, standing pawns, upgrade timer and the
      indices of the fortresses it is connected to. */
  datatype Fortress = Fortress(team: int, kind: int, level: int, pawns: real, timer: int, neighbors: seq<int>)

  /** A pawn walking from `origin` to `target`. `born` is the tick it was
      released on and `slot` the place of its batch in the pending list on that
      tick. Together they stand in for the jittered, advancing position that
      tells apart pawns of the same team, kind and edge: a batch releases at
      most one pawn per tick, so no two pawns share both. */
  datatype MovingPawn = MovingPawn(team: int, kind: int, origin: int, target: int, pos: Point, born: int, slot: int)

  /** A deployment still releasing pawns: `count` pawns are left to leave `origin`. */
  datatype Batch = Batch(team: int, kind: int, count: int, origin: int, target: int, pos: Point)

  /** What a controller is shown each tick: its own team id, the fortresses,
      the moving pawns, the pending batches and the "done" flag. */
  datatype Info = Info(team: int, fortresses: seq<Fortress>, moving: seq<MovingPawn>, spawning: seq<Batch>, done: bool)

  /** The static tables of a match.
      - `cool[kind][level]`: production interval in ticks;
      - `limit[level]`: capacity of a fortress of that level;
      - `adj[i][j]`: fortress `j` is reachable from `i` (the direction entry is not 0);
      - `spawn[i][j]`: where pawns sent from `i` to `j` appear;
      - `swapL`, `swapD`: the point-symmetric relabelling of fortress indices;
      - `stepLimit`: the tick ceiling of a match. */
  datatype Config = Config(
    cool: seq<seq<int>>,
    limit: seq<int>,
    adj: seq<seq<bool>>,
    spawn: seq<seq<Point>>,
    swapL: seq<int>,
    swapD: seq<int>,
    stepLimit: int)

  /** `s` maps 0..11 into 0..11 and undoes itself. */
  predicate IsInvolution(s: seq<int>) {
    && |s| == Size
    && (forall i :: 0 <= i < Size ==> 0 <= s[i] < Size)
    && (forall i :: 0 <= i < Size ==> s[s[i]] == i)
  }

  /** What the engine assumes of the configuration tables. */
  predicate ValidConfig(cfg: Config) {
    && |cfg.cool| == 2
    && (forall k :: 0 <= k < 2 ==> |cfg.cool[k]| > 5)
    && (forall k, l :: 0 <= k < 2 && 1 <= l <= 5 ==> cfg.cool[k][l] > 0)
    && |cfg.limit| > 5
    && (forall l :: 1 <= l <= 5 ==> cfg.limit[l] > 0)
    && |cfg.adj| == Size
    && (forall i :: 0 <= i < Size ==> |cfg.adj[i]| == Size)
    && |cfg.spawn| == Size
    && (forall i :: 0 <= i < Size ==> |cfg.spawn[i]| == Size)
    && IsInvolution(cfg.swapL)
    && IsInvolution(cfg.swapD)
  }

  /** The reachability table looks the same from both sides of the map. */
  predicate SymmetricBoard(cfg: Config)
    requires ValidConfig(cfg)
  {
    forall i, j :: 0 <= i < Size && 0 <= j < Size ==> cfg.adj[cfg.swapL[i]][cfg.swapL[j]] == cfg.adj[i][j]
  }

  /** Python's `p // 2` on a non-negative pawn count. */
  function Half(p: real): (r: int)
    requires p >= 0.0
    ensures 0 <= r && r as real <= p / 2.0 < r as real + 1.0
  {
    (p / 2.0).Floor
  }

  /** Pawns an upgrade of a fortress of this level costs (`fortress_limit[level] // 2`). */
  function Cost(cfg: Config, level: int): (r: int)
    requires ValidConfig(cfg) && 1 <= level <= 5
    ensures 0 <= r && 2 * r <= cfg.limit[level] < 2 * r + 2
  {
    cfg.limit[level] / 2
  }

  // ---------------------------------------------------------------------------
  // Shape: what the table lookups of the engine need.

  predicate FortressShaped(f: Fortress) {
    0 <= f.kind <= 1 && 1 <= f.level <= 5
  }

  predicate FortressesShaped(fs: seq<Fortress>) {
    |fs| == Size && forall i :: 0 <= i < |fs| ==> FortressShaped(fs[i])
  }

  predicate PawnShaped(p: MovingPawn) {
    0 <= p.origin < Size && 0 <= p.target < Size
  }

  predicate BatchShaped(b: Batch) {
    0 <= b.origin < Size && 0 <= b.target < Size
  }

  predicate PawnsShaped(ms: seq<MovingPawn>) {
    forall i :: 0 <= i < |ms| ==> PawnShaped(ms[i])
  }

  predicate BatchesShaped(sp: seq<Batch>) {
    forall i :: 0 <= i < |sp| ==> BatchShaped(sp[i])
  }

  // ---------------------------------------------------------------------------
  // The invariants of a running match.

  predicate TeamOk(t: int) {
    0 <= t <= 2
  }

  /** Level 1..5, non-negative pawns, timer -1 or 0..200, and a running timer
      only below level 5. */
  predicate FortressOk(f: Fortress) {
    && TeamOk(f.team)
    && FortressShaped(f)
    && f.pawns >= 0.0
    && (f.timer == -1 || 0 <= f.timer <= UpgradeTicks)
    && (f.timer != -1 ==> f.level <= 4)
  }

  predicate PawnOk(p: MovingPawn) {
    TeamOk(p.team) && 0 <= p.kind <= 1 && PawnShaped(p)
  }

  predicate BatchOk(b: Batch) {
    TeamOk(b.team) && 0 <= b.kind <= 1 && b.count >= 0 && BatchShaped(b)
  }

  predicate FortressesOk(fs: seq<Fortress>) {
    |fs| == Size && forall i :: 0 <= i < |fs| ==> FortressOk(fs[i])
  }

  predicate PawnsOk(ms: seq<MovingPawn>) {
    forall i :: 0 <= i < |ms| ==> PawnOk(ms[i])
  }

  predicate BatchesOk(sp: seq<Batch>) {
    forall i :: 0 <= i < |sp| ==> BatchOk(sp[i])
  }

  /** No two pawns in flight are the same value, so the geometry can report
      any one of them alone and `list.remove` takes the pawn meant. */
  predicate PawnsDistinct(ms: seq<MovingPawn>) {
    forall i, j :: 0 <= i < j < |ms| ==> ms[i] != ms[j]
  }

  /** Every pawn in flight was released before tick `step`. */
  predicate BornBefore(ms: seq<MovingPawn>, step: int) {
    forall i :: 0 <= i < |ms| ==> ms[i].born < step
  }

  /** The starting map: Red holds fortress 1, Blue fortress 10, the rest is neutral. */
  function InitialFortresses(): (fs: seq<Fortress>)
    ensures FortressesOk(fs)
    ensures fs[1].team == 2 && fs[10].team == 1
    ensures forall i :: 0 <= i < |fs| && i != 1 && i != 10 ==> fs[i].team == 0
  {
    [ Fortress(0, 0, 1, 10.0, -1, [1, 3, 4]),
      Fortress(2, 0, 2, 20.0, -1, [0, 2, 4]),
      Fortress(0, 0, 1, 10.0, -1, [1, 4, 5]),
      Fortress(0, 0, 2, 20.0, -1, [0, 4, 6, 7]),
      Fortress(0, 1, 3, 30.0, -1, [0, 1, 2, 3, 5, 6, 7, 8]),
      Fortress(0, 0, 2, 20.0, -1, [2, 4, 7, 8]),
      Fortress(0, 0, 2, 20.0, -1, [3, 4, 7, 9]),
      Fortress(0, 1, 3, 30.0, -1, [3, 4, 5, 6, 8, 9, 10, 11]),
      Fortress(0, 0, 2, 20.0, -1, [4, 5, 7, 11]),
      Fortress(0, 0, 1, 10.0, -1, [6, 7, 10]),
      Fortress(1, 0, 2, 20.0, -1, [7, 9, 11]),
      Fortress(0, 0, 1, 10.0, -1, [7, 8, 10]) ]
  }
}

=== FILE: defensive_gym.dfy ===
/**
 The defensive training environment: the learner is Blue (team 1) on the
 unflipped board; the mask is computed from the live fortress table and the
 chosen slot is decoded into the command handed to the learner's controller.
 */
module DefensiveGym {
  import opened Board
  import opened Engine
  import opened ActionCodec

  /** `action_masks`: the legality mask of the game's own fortress table. */
  function ActionMasks(cfg: Config, g: Game): (m: seq<bool>)
    requires ValidConfig(cfg) && FortressesShaped(g.fortresses)
    ensures MaskSpec(cfg, g.fortresses, m)
  {
    Mask(cfg, g.fortresses)
  }

  /** The decode at the top of `step`: slots below 144 give the wait triple,
      every other slot the command that re-encodes to it. */
  function StepAction(a: Action): (o: BoardOrder)
    ensures a < MoveBase ==> o == Wait
    ensures a >= MoveBase ==> Encode(o) == a && (o.command == 1 <==> a < UpgradeBase)
  {
    Decode(a)
  }

  /** On the state the mask was taken from, an offered slot is never silently
      ignored: slot 0 is the wait, which leaves fortresses and batches alone,
      and any other offered slot gives a command the engine's `order` carries
      out. Conversely every deploy the engine would carry out for team 1 is
      offered at its own slot, and every upgrade at the diagonal slot of its
      subject, whose command has the same effect. */
  lemma MaskedActionsTakeEffect(cfg: Config, g: Game)
    requires ValidConfig(cfg) && FortressesShaped(g.fortresses)
    ensures forall a: Action :: a == 0 ==>
      ApplyOrder(cfg, g.fortresses, g.spawning, 1, StepAction(a)) == (g.fortresses, g.spawning)
    ensures forall a: Action :: a != 0 && ActionMasks(cfg, g)[a] ==>
      ApplyOrder(cfg, g.fortresses, g.spawning, 1, StepAction(a)) != (g.fortresses, g.spawning)
    ensures forall o: BoardOrder ::
      ApplyOrder(cfg, g.fortresses, g.spawning, 1, o) != (g.fortresses, g.spawning) ==>
        var a := if o.command == 1 then Encode(o) else UpgradeAction(o.subject, o.subject);
        && 0 <= a < NumActions
        && ActionMasks(cfg, g)[a]
        && ApplyOrder(cfg, g.fortresses, g.spawning, 1, StepAction(a)) == ApplyOrder(cfg, g.fortresses, g.spawning, 1, o)
  {
    MaskedIffAccepted(cfg, g.fortresses);
    forall o: BoardOrder | ApplyOrder(cfg, g.fortresses, g.spawning, 1, o) != (g.fortresses, g.spawning)
      ensures var a := if o.command == 1 then Encode(o) else UpgradeAction(o.subject, o.subject);
        && 0 <= a < NumActions
        && ActionMasks(cfg, g)[a]
        && ApplyOrder(cfg, g.fortresses, g.spawning, 1, StepAction(a)) == ApplyOrder(cfg, g.fortresses, g.spawning, 1, o)
    {
      if o.command == 1 {
        DecodeEncode(o);
      } else {
        DecodeEncode(Order(2, o.subject, o.subject));
      }
    }
  }
}

=== FILE: defensive_player.dfy ===
/**
 The defensively trained learned controller. Its mask and decode follow the
 same layout as the counter-strategy controller's.
 */
module DefensivePlayer {
  import opened Board
  import opened Perspective
  import opened Engine
  import opened ActionCodec
  import Onct

  /** `update`: wait without a model; otherwise the policy's choice on the
      flipped view, decoded so that waits come from slots below 144, deploys
      from 144..287 and upgrades from 288..431, every non-wait command
      re-encoding to the chosen slot. */
  function Update(cfg: Config, model: Policy, info: Info): (o: BoardOrder)
    requires ValidConfig(cfg)
    requires model.Loaded? ==> ViewShaped(info)
    ensures model.NoModel? ==> o == Wait
    ensures model.Loaded? ==>
      var v := FlipBoardView(cfg, info);
      var a := model.predict(v, Mask(cfg, v.fortresses));
      && (a < MoveBase ==> o == Wait)
      && (a >= MoveBase ==> Encode(o) == a && (o.command == 1 <==> a < UpgradeBase))
  {
    match model
    case NoModel => Wait
    case Loaded(predict) =>
      var v := FlipBoardView(cfg, info);
      var a := predict(v, Mask(cfg, v.fortresses));
      if a < MoveBase then Wait
      else if a < UpgradeBase then
        var idx := a - MoveBase;
        Order(1, idx / 12, idx % 12)
      else
        var idx := a - UpgradeBase;
        Order(2, idx / 12, idx % 12)
  }

  /** Given the same policy and view, the defensive and counter-strategy
      controllers issue the same command. */
  lemma SameAsOnct(cfg: Config, model: Policy, info: Info)
    requires ValidConfig(cfg)
    requires model.Loaded? ==> ViewShaped(info)
    ensures Update(cfg, model, info) == Onct.Update(cfg, model, info)
  {
    if model.Loaded? {
      var v := FlipBoardView(cfg, info);
      var a := model.predict(v, Mask(cfg, v.fortresses));
      var o := Onct.Update(cfg, model, info);
      if a >= MoveBase {
        DecodeEncode(Order(o.command, o.subject, o.target));
      }
    }
  }
}

=== FILE: engine.dfy ===
/**
 The simulation engine of Fortress Conquest: commands, combat and capture,
 production, decay, batch release, upgrade countdown, the fortress tally and
 one tick of the main loop, all as pure functions over the board.
 */
module Engine {
  import opened Board
  import Perspective

  // ---------------------------------------------------------------------------
  // Commands

  /** A command triple `(command, subject, target)`: 0 waits, 1 deploys from
      `subject` to `target`, 2 upgrades `subject`; other codes are ignored. */
  datatype Order = Order(command: int, subject: int, target: int)

  /** A command whose fortress indices lie on the board. */
  type BoardOrder = o: Order | 0 <= o.subject < Size && 0 <= o.target < Size witness Order(0, 0, 0)

  const Wait := Order(0, 0, 0)

  /** The deploy guard: the sender owns `origin`, which holds at least two
      pawns, and `target` is reachable from it. */
  predicate CanDeliver(cfg: Config, fs: seq<Fortress>, team: int, origin: Index, target: Index)
    requires ValidConfig(cfg) && |fs| == Size
  {
    team == fs[origin].team && fs[origin].pawns >= 2.0 && cfg.adj[origin][target]
  }

  /** Deploy: half the pawns of `origin` (rounded down) become a new batch
      towards `target`; a failed guard changes nothing. */
  function Deliver(cfg: Config, fs: seq<Fortress>, sp: seq<Batch>, team: int, origin: Index, target: Index)
    : (r: (seq<Fortress>, seq<Batch>))
    requires ValidConfig(cfg) && |fs| == Size
    ensures |r.0| == Size
    ensures CanDeliver(cfg, fs, team, origin, target) <==> |r.1| == |sp| + 1
    ensures !CanDeliver(cfg, fs, team, origin, target) ==> r == (fs, sp)
    ensures CanDeliver(cfg, fs, team, origin, target) ==>
      var p := fs[origin].pawns;
      var b := r.1[|sp|];
      && r.1[..|sp|] == sp
      && b == Batch(team, fs[origin].kind, b.count, origin, target, cfg.spawn[origin][target])
      && b.count == Half(p) && b.count >= 1
      && b.count as real + r.0[origin].pawns == p
      && r.0[origin].pawns >= p / 2.0
      && r.0[origin] == fs[origin].(pawns := r.0[origin].pawns)
      && (forall i :: 0 <= i < Size && i != origin ==> r.0[i] == fs[i])
  {
    if CanDeliver(cfg, fs, team, origin, target) then
      var f := fs[origin];
      var sent := Half(f.pawns);
      (fs[origin := f.(pawns := f.pawns - sent as real)],
       sp + [Batch(team, f.kind, sent, origin, target, cfg.spawn[origin][target])])
    else
      (fs, sp)
  }

  /** The upgrade guard: owned by the sender, affordable, not already upgrading,
      and at a level that can still rise. */
  predicate CanUpgrade(cfg: Config, fs: seq<Fortress>, team: int, subject: Index)
    requires ValidConfig(cfg) && |fs| == Size && 1 <= fs[subject].level <= 5
  {
    && team == fs[subject].team
    && fs[subject].pawns >= Cost(cfg, fs[subject].level) as real
    && fs[subject].timer == -1
    && 1 <= fs[subject].level <= 4
  }

  /** Upgrade: start the 200-tick timer and pay half the capacity of the current level. */
  function Upgrade(cfg: Config, fs: seq<Fortress>, team: int, subject: Index): (r: seq<Fortress>)
    requires ValidConfig(cfg) && |fs| == Size && 1 <= fs[subject].level <= 5
    ensures |r| == Size
    ensures r != fs <==> CanUpgrade(cfg, fs, team, subject)
    ensures CanUpgrade(cfg, fs, team, subject) ==>
      && r[subject] == fs[subject].(timer := UpgradeTicks, pawns := fs[subject].pawns - Cost(cfg, fs[subject].level) as real)
      && r[subject].pawns >= 0.0
      && (forall i :: 0 <= i < Size && i != subject ==> r[i] == fs[i])
    ensures fs[subject].level == 5 ==> r == fs
  {
    if CanUpgrade(cfg, fs, team, subject) then
      var f := fs[subject];
      assert f.timer != UpgradeTicks;
      fs[subject := f.(timer := UpgradeTicks, pawns := f.pawns - Cost(cfg, f.level) as real)]
    else
      fs
  }

  /** The guard of whichever command `o` carries holds for `team`. */
  predicate Accepted(cfg: Config, fs: seq<Fortress>, team: int, o: BoardOrder)
    requires ValidConfig(cfg) && FortressesShaped(fs)
  {
    || (o.command == 1 && CanDeliver(cfg, fs, team, o.subject, o.target))
    || (o.command == 2 && CanUpgrade(cfg, fs, team, o.subject))
  }

  /** `order`: dispatch a command; code 0 and unknown codes do nothing. */
  function ApplyOrder(cfg: Config, fs: seq<Fortress>, sp: seq<Batch>, team: int, o: BoardOrder)
    : (r: (seq<Fortress>, seq<Batch>))
    requires ValidConfig(cfg) && FortressesShaped(fs)
    ensures |r.0| == Size
    ensures r != (fs, sp) <==> Accepted(cfg, fs, team, o)
    ensures o.command != 1 && o.command != 2 ==> r == (fs, sp)
  {
    if o.command == 1 then Deliver(cfg, fs, sp, team, o.subject, o.target)
    else if o.command == 2 then (Upgrade(cfg, fs, team, o.subject), sp)
    else (fs, sp)
  }

  // ---------------------------------------------------------------------------
  // Upgrade countdown

  function Countdown(f: Fortress): Fortress {
    if f.timer > 0 then f.(timer := f.timer - 1)
    else if f.timer == 0 then f.(timer := -1, level := f.level + 1)
    else f
  }

  /** `check_upgrade`: a running timer ticks down by one; a timer at 0 finishes
      the upgrade (one level up, timer cleared); an idle fortress is untouched. */
  function CheckUpgrade(fs: seq<Fortress>): (r: seq<Fortress>)
    ensures |r| == |fs|
    ensures forall i :: 0 <= i < |fs| ==>
      && r[i].team == fs[i].team && r[i].kind == fs[i].kind
      && r[i].pawns == fs[i].pawns && r[i].neighbors == fs[i].neighbors
      && (fs[i].timer > 0 ==> r[i].timer == fs[i].timer - 1 && r[i].level == fs[i].level)
      && (fs[i].timer == 0 ==> r[i].timer == -1 && r[i].level == fs[i].level + 1)
      && (fs[i].timer < 0 ==> r[i] == fs[i])
  {
    seq(|fs|, i requires 0 <= i < |fs| => Countdown(fs[i]))
  }

  /** `n` countdown ticks of one fortress. */
  function CountdownN(f: Fortress, n: nat): Fortress
    decreases n
  {
    if n == 0 then f else CountdownN(Countdown(f), n - 1)
  }

  /** An upgrade started now finishes exactly 201 countdown ticks later: for
      200 ticks the level stays put while the timer runs down, and the 201st
      tick raises the level by one and clears the timer. */
  lemma {:induction false} UpgradeTakes201Ticks(f: Fortress, n: nat)
    requires f.timer == UpgradeTicks
    ensures n <= UpgradeTicks ==> CountdownN(f, n) == f.(timer := UpgradeTicks - n)
    ensures n == UpgradeTicks + 1 ==> CountdownN(f, n) == f.(timer := -1, level := f.level + 1)
  {
    if n <= UpgradeTicks + 1 {
      RunDown(f, n);
    }
  }

  lemma {:induction false} RunDown(f: Fortress, n: nat)
    requires 0 <= f.timer && n <= f.timer + 1
    ensures n <= f.timer ==> CountdownN(f, n) == f.(timer := f.timer - n)
    ensures n == f.timer + 1 ==> CountdownN(f, n) == f.(timer := -1, level := f.level + 1)
    decreases n
  {
    if n > 0 {
      if f.timer == 0 {
        assert CountdownN(f, n) == CountdownN(Countdown(f), 0);
      } else {
        RunDown(Countdown(f), n - 1);
      }
    }
  }

  // ---------------------------------------------------------------------------
  // Production and decay

  function Born(cfg: Config, f: Fortress, step: int): Fortress
    requires ValidConfig(cfg) && FortressShaped(f)
  {
    var cap := cfg.limit[f.level] as real;
    if step % cfg.cool[f.kind][f.level] == 0 && f.pawns < cap then
      f.(pawns := if f.pawns + 1.0 > cap then cap else f.pawns + 1.0)
    else f
  }

  /** `pawn_born`: on a production tick of its (kind, level) every fortress,
      neutral ones included, below capacity gains one pawn, never passing
      capacity; a fortress at or above capacity, or off its tick, keeps its count. */
  function Production(cfg: Config, fs: seq<Fortress>, step: int): (r: seq<Fortress>)
    requires ValidConfig(cfg) && FortressesShaped(fs)
    ensures FortressesShaped(r)
    ensures forall i :: 0 <= i < Size ==>
      var cap := cfg.limit[fs[i].level] as real;
      && r[i] == fs[i].(pawns := r[i].pawns)
      && fs[i].pawns <= r[i].pawns <= fs[i].pawns + 1.0
      && (fs[i].pawns < cap ==> r[i].pawns <= cap)
      && (r[i].pawns != fs[i].pawns ==> r[i].pawns == fs[i].pawns + 1.0 || r[i].pawns == cap)
      && (r[i].pawns != fs[i].pawns <==> step % cfg.cool[fs[i].kind][fs[i].level] == 0 && fs[i].pawns < cap)
  {
    seq(Size, i requires 0 <= i < Size => Born(cfg, fs[i], step))
  }

  function Over(cfg: Config, f: Fortress, step: int): Fortress
    requires ValidConfig(cfg) && FortressShaped(f)
  {
    if step % DecayPeriod == 0 && f.pawns > cfg.limit[f.level] as real then
      f.(pawns := f.pawns - 1.0)
    else f
  }

  /** `pawn_over`: on a tick that is a multiple of 40, every fortress above its
      capacity loses exactly one pawn, and so stays at least at capacity; nothing
      else changes. */
  function Decay(cfg: Config, fs: seq<Fortress>, step: int): (r: seq<Fortress>)
    requires ValidConfig(cfg) && FortressesShaped(fs)
    ensures FortressesShaped(r)
    ensures forall i :: 0 <= i < Size ==>
      var cap := cfg.limit[fs[i].level] as real;
      && r[i] == fs[i].(pawns := r[i].pawns)
      && (step % DecayPeriod == 0 && fs[i].pawns > cap ==> r[i].pawns == fs[i].pawns - 1.0 && r[i].pawns > cap - 1.0)
      && (!(step % DecayPeriod == 0 && fs[i].pawns > cap) ==> r[i] == fs[i])
  {
    seq(Size, i requires 0 <= i < Size => Over(cfg, fs[i], step))
  }

  // ---------------------------------------------------------------------------
  // Batch release

  /** A batch releases a pawn on this tick: every 7th tick for kind 0, every
      10th for kind 1, while pawns remain. */
  predicate Releases(b: Batch, step: int) {
    b.count > 0 && ((step % 7 == 0 && b.kind == 0) || (step % 10 == 0 && b.kind == 1))
  }

  function AfterRelease(b: Batch, step: int): Batch {
    if Releases(b, step) then b.(count := b.count - 1) else b
  }

  /** The pawn that the batch at place `slot` of the pending list releases on tick `step`. */
  function PawnOf(b: Batch, step: int, slot: int): MovingPawn {
    MovingPawn(b.team, b.kind, b.origin, b.target, b.pos, step, slot)
  }

  /** The pawns released this tick, in batch order, where `first` is the
      place of `sp[0]` in the pending list. `ReleasedExactly` states which
      pawns these are. */
  function Released(sp: seq<Batch>, step: int, first: int): (r: seq<MovingPawn>)
    ensures |r| <= |sp|
    ensures forall j :: 0 <= j < |r| ==> r[j].born == step && first <= r[j].slot < first + |sp|
    decreases |sp|
  {
    if sp == [] then []
    else
      (if Releases(sp[0], step) then [PawnOf(sp[0], step, first)] else [])
      + Released(sp[1..], step, first + 1)
  }

  /** Each pawn of `r` is the pawn of a releasing batch of `sp`, taken from
      that batch's place in the list (`sp[0]` being at place `first`). */
  predicate FromReleasing(r: seq<MovingPawn>, sp: seq<Batch>, step: int, first: int) {
    forall j :: 0 <= j < |r| ==>
      0 <= r[j].slot - first < |sp| && Releases(sp[r[j].slot - first], step)
      && r[j] == PawnOf(sp[r[j].slot - first], step, r[j].slot)
  }

  /** The pawns of `r` come in strictly increasing batch order. */
  predicate InSlotOrder(r: seq<MovingPawn>) {
    forall j, j' :: 0 <= j < j' < |r| ==> r[j].slot < r[j'].slot
  }

  /** Every released pawn is the pawn of a releasing batch. */
  lemma {:induction false} ReleasedFromReleasing(sp: seq<Batch>, step: int, first: int)
    ensures FromReleasing(Released(sp, step, first), sp, step, first)
    decreases |sp|
  {
    if sp != [] {
      ReleasedFromReleasing(sp[1..], step, first + 1);
      var r := Released(sp, step, first);
      var head := if Releases(sp[0], step) then [PawnOf(sp[0], step, first)] else [];
      var rest := Released(sp[1..], step, first + 1);
      assert r == head + rest;
      forall j | 0 <= j < |r|
        ensures 0 <= r[j].slot - first < |sp| && Releases(sp[r[j].slot - first], step)
        ensures r[j] == PawnOf(sp[r[j].slot - first], step, r[j].slot)
      {
        if j < |head| {
          assert r[j] == head[0];
        } else {
          var k := rest[j - |head|].slot - first - 1;
          assert r[j] == rest[j - |head|];
          assert sp[1..][k] == sp[k + 1];
        }
      }
    }
  }

  /** Every releasing batch contributes its pawn. */
  lemma {:induction false} ReleasingIsReleased(sp: seq<Batch>, step: int, first: int)
    ensures forall k :: 0 <= k < |sp| && Releases(sp[k], step) ==>
      PawnOf(sp[k], step, first + k) in Released(sp, step, first)
    decreases |sp|
  {
    if sp != [] {
      ReleasingIsReleased(sp[1..], step, first + 1);
      var head := if Releases(sp[0], step) then [PawnOf(sp[0], step, first)] else [];
      var rest := Released(sp[1..], step, first + 1);
      assert Released(sp, step, first) == head + rest;
      forall k | 1 <= k < |sp| && Releases(sp[k], step)
        ensures PawnOf(sp[k], step, first + k) in Released(sp, step, first)
      {
        assert sp[1..][k - 1] == sp[k];
      }
    }
  }

  /** Released pawns come in strictly increasing batch order. */
  lemma {:induction false} ReleasedInOrder(sp: seq<Batch>, step: int, first: int)
    ensures InSlotOrder(Released(sp, step, first))
    decreases |sp|
  {
    if sp != [] {
      ReleasedInOrder(sp[1..], step, first + 1);
      var r := Released(sp, step, first);
      var head := if Releases(sp[0], step) then [PawnOf(sp[0], step, first)] else [];
      var rest := Released(sp[1..], step, first + 1);
      assert r == head + rest;
      forall j, j' | 0 <= j < j' < |r|
        ensures r[j].slot < r[j'].slot
      {
        if j < |head| {
          assert r[j] == head[0] && r[j'] == rest[j' - |head|];
        } else {
          assert r[j] == rest[j - |head|] && r[j'] == rest[j' - |head|];
        }
      }
    }
  }

  /** `pawn_departure`'s release loop: the released pawns are exactly one per
      batch whose turn it is, with that batch's team, kind, endpoints and
      spawn point, in batch order, and none of them equal. */
  lemma ReleasedExactly(sp: seq<Batch>, step: int)
    ensures FromReleasing(Released(sp, step, 0), sp, step, 0)
    ensures forall k :: 0 <= k < |sp| && Releases(sp[k], step) ==> PawnOf(sp[k], step, k) in Released(sp, step, 0)
    ensures InSlotOrder(Released(sp, step, 0))
    ensures PawnsDistinct(Released(sp, step, 0))
  {
    ReleasedFromReleasing(sp, step, 0);
    ReleasingIsReleased(sp, step, 0);
    ReleasedInOrder(sp, step, 0);
  }

  /** Index of the first batch with no pawns left, or `|sp|` if there is none. */
  function FirstExhausted(sp: seq<Batch>): (k: nat)
    ensures k <= |sp|
    ensures forall i :: 0 <= i < k ==> sp[i].count > 0
    ensures k < |sp| ==> sp[k].count <= 0
  {
    if sp == [] then 0
    else if sp[0].count <= 0 then 0
    else 1 + FirstExhausted(sp[1..])
  }

  /** Drop the first exhausted batch (the loop stops at the first removal). */
  function RemoveFirstExhausted(sp: seq<Batch>): (r: seq<Batch>)
    ensures var k := FirstExhausted(sp);
      k < |sp| ==> r == sp[..k] + sp[k + 1..]
    ensures FirstExhausted(sp) == |sp| ==> r == sp
  {
    var k := FirstExhausted(sp);
    if k < |sp| then sp[..k] + sp[k + 1..] else sp
  }

  /** The first loop of `pawn_departure` on the batch list: each batch whose
      turn it is counts down by exactly one, the others are untouched. */
  function CountDownAll(sp: seq<Batch>, step: int): (r: seq<Batch>)
    ensures |r| == |sp|
    ensures forall i :: 0 <= i < |sp| ==>
      && r[i] == sp[i].(count := r[i].count)
      && (Releases(sp[i], step) ==> r[i].count == sp[i].count - 1)
      && (!Releases(sp[i], step) ==> r[i] == sp[i])
  {
    if sp == [] then [] else [AfterRelease(sp[0], step)] + CountDownAll(sp[1..], step)
  }

  /** `pawn_departure`: each batch whose turn it is sends one pawn and counts
      down by one; then at most one exhausted batch is removed. */
  function Departure(sp: seq<Batch>, ms: seq<MovingPawn>, step: int): (r: (seq<Batch>, seq<MovingPawn>))
    ensures r.0 == RemoveFirstExhausted(CountDownAll(sp, step))
    ensures r.1 == ms + Released(sp, step, 0)
    ensures |sp| - 1 <= |r.0| <= |sp|
  {
    (RemoveFirstExhausted(CountDownAll(sp, step)), ms + Released(sp, step, 0))
  }

  // ---------------------------------------------------------------------------
  // Arrival and combat

  /** Damage a hostile pawn of this kind deals on arrival. */
  function Damage(kind: int): (d: real)
    ensures kind == 0 ==> d == 0.65
    ensures kind == 1 ==> d == 0.95
  {
    if kind == 0 then 0.65 else if kind == 1 then 0.95 else 0.0
  }

  /** The fortress is taken when a hostile pawn drives its count below zero. */
  predicate Captures(f: Fortress, p: MovingPawn) {
    p.team != f.team && f.pawns - Damage(p.kind) < 0.0
  }

  /** `pawn_arrive` on the board: a friendly pawn adds one, a hostile pawn
      subtracts its damage, and a count driven below zero hands the fortress to
      the pawn's team at level 1 with no pawns and no upgrade. */
  function Arrive(fs: seq<Fortress>, p: MovingPawn): (r: seq<Fortress>)
    requires 0 <= p.target < |fs|
    ensures |r| == |fs|
    ensures forall i :: 0 <= i < |fs| && i != p.target ==> r[i] == fs[i]
    ensures var f := fs[p.target];
      && (r[p.target].team != f.team <==> Captures(f, p))
      && (p.team == f.team ==> r[p.target] == f.(pawns := f.pawns + 1.0))
      && (Captures(f, p) ==> r[p.target] == Fortress(p.team, f.kind, 1, 0.0, -1, f.neighbors))
      && (p.team != f.team && !Captures(f, p) ==>
            r[p.target] == f.(pawns := f.pawns - Damage(p.kind)) && r[p.target].pawns >= 0.0)
  {
    var f := fs[p.target];
    if p.team == f.team then fs[p.target := f.(pawns := f.pawns + 1.0)]
    else if Captures(f, p) then fs[p.target := Fortress(p.team, f.kind, 1, 0.0, -1, f.neighbors)]
    else fs[p.target := f.(pawns := f.pawns - Damage(p.kind))]
  }

  /** The pawns that reached their target this tick, in list order (`remove_list`). */
  function Arrivals(ms: seq<MovingPawn>, arrived: set<MovingPawn>): (r: seq<MovingPawn>)
    ensures |r| <= |ms|
    ensures forall x :: x in r <==> x in ms && x in arrived
  {
    if ms == [] then []
    else (if ms[0] in arrived then [ms[0]] else []) + Arrivals(ms[1..], arrived)
  }

  /** The pawns still walking: those that did not arrive, in list order. */
  function Staying(ms: seq<MovingPawn>, arrived: set<MovingPawn>): (r: seq<MovingPawn>)
    ensures |r| <= |ms|
    ensures forall x :: x in r <==> x in ms && x !in arrived
  {
    if ms == [] then []
    else (if ms[0] in arrived then [] else [ms[0]]) + Staying(ms[1..], arrived)
  }

  /** `list.remove`: drop the first element equal to `p`. */
  function RemoveFirst(ms: seq<MovingPawn>, p: MovingPawn): seq<MovingPawn> {
    if ms == [] then []
    else if ms[0] == p then ms[1..]
    else [ms[0]] + RemoveFirst(ms[1..], p)
  }

  /** Some pawn of `arrivals` is headed for fortress `i`. */
  predicate Targets(arrivals: seq<MovingPawn>, i: int) {
    exists j :: 0 <= j < |arrivals| && arrivals[j].target == i
  }

  /** The loop over `remove_list`: resolve each arrival against the board and
      remove that pawn from the moving list. */
  function ArriveAll(fs: seq<Fortress>, ms: seq<MovingPawn>, arrivals: seq<MovingPawn>)
    : (r: (seq<Fortress>, seq<MovingPawn>))
    requires forall i :: 0 <= i < |arrivals| ==> 0 <= arrivals[i].target < |fs|
    ensures |r.0| == |fs|
    ensures forall i :: 0 <= i < |fs| && !Targets(arrivals, i) ==> r.0[i] == fs[i]
    decreases |arrivals|
  {
    if arrivals == [] then (fs, ms)
    else ArriveAll(Arrive(fs, arrivals[0]), RemoveFirst(ms, arrivals[0]), arrivals[1..])
  }

  /** Arrival resolution of `pawn_move`, given which pawns the geometry
      reports as arrived. */
  function PawnMove(fs: seq<Fortress>, ms: seq<MovingPawn>, arrived: set<MovingPawn>)
    : (r: (seq<Fortress>, seq<MovingPawn>))
    requires |fs| == Size && PawnsShaped(ms)
    ensures |r.0| == Size
  {
    var arrivals := Arrivals(ms, arrived);
    assert forall i :: 0 <= i < |arrivals| ==> 0 <= arrivals[i].target < |fs| by {
      forall i | 0 <= i < |arrivals| ensures 0 <= arrivals[i].target < |fs| {
        assert arrivals[i] in arrivals;
        var k :| 0 <= k < |ms| && ms[k] == arrivals[i];
      }
    }
    ArriveAll(fs, ms, arrivals)
  }

  lemma {:induction false} RemoveFirstSkips(x: MovingPawn, l: seq<MovingPawn>, ys: seq<MovingPawn>)
    requires forall i :: 0 <= i < |ys| ==> ys[i] != x
    ensures RemoveAllOf([x] + l, ys) == [x] + RemoveAllOf(l, ys)
    decreases |ys|
  {
    if ys != [] {
      assert RemoveFirst([x] + l, ys[0]) == [x] + RemoveFirst(l, ys[0]);
      RemoveFirstSkips(x, RemoveFirst(l, ys[0]), ys[1..]);
    }
  }

  function RemoveAllOf(ms: seq<MovingPawn>, ys: seq<MovingPawn>): seq<MovingPawn>
    decreases |ys|
  {
    if ys == [] then ms else RemoveAllOf(RemoveFirst(ms, ys[0]), ys[1..])
  }

  /** Removing every arrival by value, first occurrence first, leaves exactly
      the pawns that did not arrive, in their original order. */
  lemma {:induction false} RemovingArrivalsLeavesStaying(ms: seq<MovingPawn>, arrived: set<MovingPawn>)
    ensures RemoveAllOf(ms, Arrivals(ms, arrived)) == Staying(ms, arrived)
    decreases |ms|
  {
    if ms != [] {
      var x, rest := ms[0], ms[1..];
      assert ms == [x] + rest;
      RemovingArrivalsLeavesStaying(rest, arrived);
      if x in arrived {
        assert Arrivals(ms, arrived) == [x] + Arrivals(rest, arrived);
        assert RemoveFirst(ms, x) == rest;
      } else {
        assert Arrivals(ms, arrived) == Arrivals(rest, arrived);
        RemoveFirstSkips(x, rest, Arrivals(rest, arrived));
      }
    }
  }

  lemma {:induction false} ArriveAllMoving(fs: seq<Fortress>, ms: seq<MovingPawn>, arrivals: seq<MovingPawn>)
    requires forall i :: 0 <= i < |arrivals| ==> 0 <= arrivals[i].target < |fs|
    ensures ArriveAll(fs, ms, arrivals).1 == RemoveAllOf(ms, arrivals)
    decreases |arrivals|
  {
    if arrivals != [] {
      ArriveAllMoving(Arrive(fs, arrivals[0]), RemoveFirst(ms, arrivals[0]), arrivals[1..]);
    }
  }

  /** After arrival resolution the moving list is the pawns that did not
      arrive, in order, and every pawn is either still moving or resolved. */
  lemma PawnMoveRemovesArrivals(fs: seq<Fortress>, ms: seq<MovingPawn>, arrived: set<MovingPawn>)
    requires |fs| == Size && PawnsShaped(ms)
    ensures PawnMove(fs, ms, arrived).1 == Staying(ms, arrived)
    ensures |Staying(ms, arrived)| + |Arrivals(ms, arrived)| == |ms|
  {
    var arrivals := Arrivals(ms, arrived);
    assert forall i :: 0 <= i < |arrivals| ==> 0 <= arrivals[i].target < |fs| by {
      forall i | 0 <= i < |arrivals| ensures 0 <= arrivals[i].target < |fs| {
        assert arrivals[i] in arrivals;
        var k :| 0 <= k < |ms| && ms[k] == arrivals[i];
      }
    }
    ArriveAllMoving(fs, ms, arrivals);
    RemovingArrivalsLeavesStaying(ms, arrived);
    PartitionSizes(ms, arrived);
  }

  /** No pawn of `ms` is reported: none arrives and all keep walking. */
  lemma {:induction false} NoneArrive(ms: seq<MovingPawn>, arrived: set<MovingPawn>)
    requires forall i :: 0 <= i < |ms| ==> ms[i] !in arrived
    ensures Arrivals(ms, arrived) == [] && Staying(ms, arrived) == ms
    decreases |ms|
  {
    if ms != [] {
      NoneArrive(ms[1..], arrived);
      assert ms == [ms[0]] + ms[1..];
    }
  }

  /** With the pawns in flight pairwise distinct, as `Inv` keeps them, the
      geometry may report any single pawn: exactly that pawn is resolved and
      every other pawn keeps walking, in order. */
  lemma {:induction false} OnePawnArrives(ms: seq<MovingPawn>, k: nat)
    requires PawnsDistinct(ms) && k < |ms|
    ensures Arrivals(ms, {ms[k]}) == [ms[k]]
    ensures Staying(ms, {ms[k]}) == ms[..k] + ms[k + 1..]
    decreases |ms|
  {
    TailDistinct(ms);
    if k == 0 {
      FirstArrivesAlone(ms);
    } else {
      var x, rest := ms[k], ms[1..];
      assert rest[k - 1] == x;
      OnePawnArrives(rest, k - 1);
      LaterArrivesAlone(ms, k);
    }
  }

  lemma FirstArrivesAlone(ms: seq<MovingPawn>)
    requires PawnsDistinct(ms) && ms != []
    ensures Arrivals(ms, {ms[0]}) == [ms[0]]
    ensures Staying(ms, {ms[0]}) == ms[1..]
  {
    assert forall i :: 0 <= i < |ms| - 1 ==> ms[1..][i] == ms[i + 1];
    NoneArrive(ms[1..], {ms[0]});
  }

  /** The step of `OnePawnArrives` past a pawn that is not the reported one. */
  lemma LaterArrivesAlone(ms: seq<MovingPawn>, k: nat)
    requires 0 < k < |ms| && ms[0] != ms[k]
    requires Arrivals(ms[1..], {ms[k]}) == [ms[k]]
    requires Staying(ms[1..], {ms[k]}) == ms[1..][..k - 1] + ms[1..][k..]
    ensures Arrivals(ms, {ms[k]}) == [ms[k]]
    ensures Staying(ms, {ms[k]}) == ms[..k] + ms[k + 1..]
  {
    SkipFirst(ms, {ms[k]});
    SpliceAfterHead(ms, k);
  }

  lemma SpliceAfterHead(ms: seq<MovingPawn>, k: nat)
    requires 0 < k < |ms|
    ensures [ms[0]] + (ms[1..][..k - 1] + ms[1..][k..]) == ms[..k] + ms[k + 1..]
  {
    var rest := ms[1..];
    assert ms[..k] == [ms[0]] + rest[..k - 1];
    assert ms[k + 1..] == rest[k..];
  }

  /** A pawn that is not reported neither arrives nor leaves the walking list. */
  lemma SkipFirst(ms: seq<MovingPawn>, arrived: set<MovingPawn>)
    requires ms != [] && ms[0] !in arrived
    ensures Arrivals(ms, arrived) == Arrivals(ms[1..], arrived)
    ensures Staying(ms, arrived) == [ms[0]] + Staying(ms[1..], arrived)
  {
  }

  lemma TailDistinct(ms: seq<MovingPawn>)
    requires PawnsDistinct(ms) && ms != []
    ensures PawnsDistinct(ms[1..])
  {
    assert forall i :: 0 <= i < |ms| - 1 ==> ms[1..][i] == ms[i + 1];
  }

  /** The pawns that keep walking stay pairwise distinct. */
  lemma {:induction false} StayingDistinct(ms: seq<MovingPawn>, arrived: set<MovingPawn>)
    requires PawnsDistinct(ms)
    ensures PawnsDistinct(Staying(ms, arrived))
    decreases |ms|
  {
    if ms != [] {
      var rest := ms[1..];
      assert forall i :: 0 <= i < |rest| ==> rest[i] == ms[i + 1];
      StayingDistinct(rest, arrived);
      var st := Staying(rest, arrived);
      assert ms[0] !in st;
      var h := if ms[0] in arrived then [] else [ms[0]];
      var r := h + st;
      assert Staying(ms, arrived) == r;
      forall i, j | 0 <= i < j < |r|
        ensures r[i] != r[j]
      {
        assert r[j] == st[j - |h|];
        if i < |h| {
          assert st[j - |h|] in st;
        } else {
          assert r[i] == st[i - |h|];
        }
      }
    }
  }

  lemma {:induction false} PartitionSizes(ms: seq<MovingPawn>, arrived: set<MovingPawn>)
    ensures |Staying(ms, arrived)| + |Arrivals(ms, arrived)| == |ms|
    decreases |ms|
  {
    if ms != [] {
      PartitionSizes(ms[1..], arrived);
    }
  }

  // ---------------------------------------------------------------------------
  // Game over

  datatype Winner = Both | Red | Blue

  /** The result of `CheckGameOver`: whether the match is over, the winner label
      and the two fortress counts. */
  datatype Tally = Tally(over: bool, winner: Winner, blue: nat, red: nat)

  /** The number of fortresses `team` holds. */
  function CountTeam(fs: seq<Fortress>, team: int): (n: nat)
    ensures n <= |fs|
    ensures n == 0 <==> forall i :: 0 <= i < |fs| ==> fs[i].team != team
  {
    if fs == [] then 0
    else (if fs[0].team == team then 1 else 0) + CountTeam(fs[1..], team)
  }

  /** `CheckGameOver`: count Blue (team 1) and Red (team 2) fortresses; Both on
      a tie, Red when Red leads, Blue otherwise; over when either count is 0. */
  function CheckGameOver(fs: seq<Fortress>): (r: Tally)
    ensures r.blue == CountTeam(fs, 1) && r.red == CountTeam(fs, 2)
    ensures r.winner == Both <==> r.blue == r.red
    ensures r.winner == Red <==> r.red > r.blue
    ensures r.winner == Blue <==> r.blue > r.red
    ensures r.over <==> r.blue == 0 || r.red == 0
  {
    var blue := CountTeam(fs, 1);
    var red := CountTeam(fs, 2);
    var winner := if red == blue then Both else if red > blue then Red else Blue;
    Tally(red == 0 || blue == 0, winner, blue, red)
  }

  lemma {:induction false} CountsAddUp(fs: seq<Fortress>)
    requires forall i :: 0 <= i < |fs| ==> TeamOk(fs[i].team)
    ensures CountTeam(fs, 0) + CountTeam(fs, 1) + CountTeam(fs, 2) == |fs|
    decreases |fs|
  {
    if fs != [] {
      CountsAddUp(fs[1..]);
    }
  }

  /** On a full board the tally can never see both sides wiped out while
      neutral fortresses are absent, and a side holding every fortress wins. */
  lemma TallyOfFullBoard(fs: seq<Fortress>)
    requires FortressesOk(fs)
    ensures var t := CheckGameOver(fs);
      t.blue + t.red <= Size
      && (t.blue == Size ==> t.over && t.winner == Blue)
      && (t.red == Size ==> t.over && t.winner == Red)
      && (CountTeam(fs, 0) == 0 ==> t.blue + t.red == Size)
  {
    CountsAddUp(fs);
  }

  // ---------------------------------------------------------------------------
  // The match

  /** The engine's state between ticks. `loopOver` is `isGameOver_loop`,
      `gameOver` is `isGameOver`. */
  datatype Game = Game(
    fortresses: seq<Fortress>,
    spawning: seq<Batch>,
    moving: seq<MovingPawn>,
    step: int,
    done: bool,
    loopOver: bool,
    gameOver: bool,
    winner: Winner,
    blue: int,
    red: int)

  /** The state built by the constructor. */
  function InitialGame(): (g: Game)
    ensures Inv(g) && g.step == 0 && g.spawning == [] && g.moving == []
    ensures g.fortresses[1].team == 2 && g.fortresses[10].team == 1
    ensures !g.done && !g.loopOver && !g.gameOver
  {
    Game(InitialFortresses(), [], [], 0, false, false, false, Both, 1, 1)
  }

  /** While both sides hold a fortress (as on the starting map, where Red
      holds fortress 1 and Blue fortress 10) the tally does not end the match. */
  lemma InitialNotOver(fs: seq<Fortress>)
    requires |fs| == Size && fs[1].team == 2 && fs[10].team == 1
    ensures !CheckGameOver(fs).over
  {
    CountTeamHolds(fs, 1, 10);
    CountTeamHolds(fs, 2, 1);
  }

  /** A team holding some fortress has a positive count. */
  lemma {:induction false} CountTeamHolds(fs: seq<Fortress>, team: int, i: nat)
    requires i < |fs| && fs[i].team == team
    ensures CountTeam(fs, team) >= 1
    decreases i
  {
    if i > 0 {
      CountTeamHolds(fs[1..], team, i - 1);
    }
  }

  /** What the table lookups of a tick need. */
  predicate Shaped(g: Game) {
    FortressesShaped(g.fortresses) && PawnsShaped(g.moving) && BatchesShaped(g.spawning)
  }

  /** The invariants a running match keeps. */
  predicate Inv(g: Game) {
    && FortressesOk(g.fortresses)
    && PawnsOk(g.moving)
    && BatchesOk(g.spawning)
    && PawnsDistinct(g.moving)
    && BornBefore(g.moving, g.step)
    && g.step >= 0
  }

  /** A controller: a pure function of its view returning a command. */
  type Controller = Info -> BoardOrder

  /** Team 2's command, translated from its flipped view back to board indices. */
  function Unflip(cfg: Config, o: BoardOrder): (r: BoardOrder)
    requires ValidConfig(cfg)
    ensures r.command == o.command
    ensures cfg.swapL[r.subject] == o.subject && cfg.swapL[r.target] == o.target
  {
    Order(o.command, cfg.swapL[o.subject], cfg.swapL[o.target])
  }

  /** The two views of this tick: team 1 sees the board as it is, team 2 a
      flipped copy. */
  function Views(cfg: Config, fs: seq<Fortress>, ms: seq<MovingPawn>, sp: seq<Batch>, done: bool): (r: (Info, Info))
    requires ValidConfig(cfg) && |fs| == Size && PawnsShaped(ms) && BatchesShaped(sp)
    ensures r.0 == Info(1, fs, ms, sp, done)
    ensures r.1 == Perspective.Relabel(cfg, Info(2, fs, ms, sp, done)) && r.1.team == 1
  {
    (Info(1, fs, ms, sp, done), Perspective.FlipBoardView(cfg, Info(2, fs, ms, sp, done)))
  }

  /** Step 3 of a tick: ask both controllers. Team 1 gets the board as it is,
      team 2 a flipped view, and team 2's answer is mapped back to board indices. */
  function Orders(cfg: Config, fs: seq<Fortress>, ms: seq<MovingPawn>, sp: seq<Batch>, done: bool,
                  c1: Controller, c2: Controller): (r: (BoardOrder, BoardOrder))
    requires ValidConfig(cfg) && |fs| == Size && PawnsShaped(ms) && BatchesShaped(sp)
    ensures r.0 == c1(Info(1, fs, ms, sp, done))
    ensures r.1 == Unflip(cfg, c2(Perspective.Relabel(cfg, Info(2, fs, ms, sp, done))))
  {
    var views := Views(cfg, fs, ms, sp, done);
    (c1(views.0), Unflip(cfg, c2(views.1)))
  }

  /** Step 4 of a tick: team 1's command, then team 2's. */
  function Commands(cfg: Config, fs: seq<Fortress>, sp: seq<Batch>, o1: BoardOrder, o2: BoardOrder)
    : (r: (seq<Fortress>, seq<Batch>))
    requires ValidConfig(cfg) && FortressesShaped(fs)
    ensures FortressesShaped(r.0)
    ensures BatchesShaped(sp) ==> BatchesShaped(r.1)
  {
    var first := ApplyOrder(cfg, fs, sp, 1, o1);
    ApplyOrderShaped(cfg, fs, sp, 1, o1);
    ApplyOrderShaped(cfg, first.0, first.1, 2, o2);
    ApplyOrder(cfg, first.0, first.1, 2, o2)
  }

  /** Steps 6 to 8 of a tick: production, decay on every 40th tick, upgrade countdown. */
  function Upkeep(cfg: Config, fs: seq<Fortress>, step: int): (r: seq<Fortress>)
    requires ValidConfig(cfg) && FortressesShaped(fs)
    ensures |r| == Size
  {
    var born := Production(cfg, fs, step);
    var over := if step % DecayPeriod == 0 then Decay(cfg, born, step) else born;
    CheckUpgrade(over)
  }

  /** Steps 4 to 9 of a tick, once both commands are known: apply team 1's
      then team 2's command, release batches, produce, decay on every 40th
      tick, count down upgrades, advance the tick counter and check for the
      end again. */
  function AfterOrders(cfg: Config, g: Game, fs: seq<Fortress>, ms: seq<MovingPawn>, done: bool,
                       o1: BoardOrder, o2: BoardOrder): (r: Game)
    requires ValidConfig(cfg) && FortressesShaped(fs) && BatchesShaped(g.spawning)
    ensures r.step == g.step + 1 && r.done == done && r.gameOver == g.gameOver
    ensures var t := CheckGameOver(r.fortresses);
      r.winner == t.winner && r.blue == t.blue && r.red == t.red
      && r.loopOver == (g.loopOver || t.over)
  {
    var commanded := Commands(cfg, fs, g.spawning, o1, o2);
    var departed := Departure(commanded.1, ms, g.step);
    var upkept := Upkeep(cfg, commanded.0, g.step);
    var late := CheckGameOver(upkept);
    Game(upkept, departed.0, departed.1, g.step + 1, done, g.loopOver || late.over, g.gameOver, late.winner, late.blue, late.red)
  }

  /** One pass of the main loop body: move and resolve arrivals, check for the
      end, ask both controllers, then carry out steps 4 to 9. */
  function Tick(cfg: Config, g: Game, arrived: set<MovingPawn>, c1: Controller, c2: Controller): (r: Game)
    requires ValidConfig(cfg) && Shaped(g)
    ensures r.step == g.step + 1
    ensures var mid := PawnMove(g.fortresses, g.moving, arrived).0;
      r.done == (CheckGameOver(mid).over || g.step == cfg.stepLimit - 1)
    ensures var t := CheckGameOver(r.fortresses);
      r.winner == t.winner && r.blue == t.blue && r.red == t.red
      && r.loopOver == (g.loopOver || t.over)
    ensures r.gameOver == g.gameOver
  {
    var moved := PawnMove(g.fortresses, g.moving, arrived);
    PawnMoveShaped(g.fortresses, g.moving, arrived);
    var done := CheckGameOver(moved.0).over || g.step == cfg.stepLimit - 1;
    var orders := Orders(cfg, moved.0, moved.1, g.spawning, done, c1, c2);
    AfterOrders(cfg, g, moved.0, moved.1, done, orders.0, orders.1)
  }

  /** The loop guard of `run`: a match that is over, at the tick ceiling or
      flagged done runs no further ticks. */
  predicate Halted(cfg: Config, g: Game) {
    g.gameOver || g.step >= cfg.stepLimit || g.loopOver || g.done
  }

  /** One iteration of the inner loop of `run`: stop (and mark the match over)
      or run one tick. */
  function Advance(cfg: Config, g: Game, arrived: set<MovingPawn>, c1: Controller, c2: Controller): (r: Game)
    requires ValidConfig(cfg) && Shaped(g)
    ensures Halted(cfg, g) ==>
      Halted(cfg, r) && r.gameOver && r.fortresses == g.fortresses && r.moving == g.moving
      && r.spawning == g.spawning && r.step == g.step && r.winner == g.winner
    ensures !Halted(cfg, g) ==>
      r.step == g.step + 1 && !r.gameOver
      && r.loopOver == CheckGameOver(r.fortresses).over
      && r.done == (CheckGameOver(PawnMove(g.fortresses, g.moving, arrived).0).over || g.step == cfg.stepLimit - 1)
  {
    if Halted(cfg, g) then g.(gameOver := true) else Tick(cfg, g, arrived, c1, c2)
  }

  /** The terminal state is a fixed point: once a halted match has been
      marked over, every further iteration returns it unchanged, whatever the
      arrival report and the controllers. */
  lemma HaltedIsSticky(cfg: Config, g: Game, arrived: set<MovingPawn>, c1: Controller, c2: Controller,
                       later: set<MovingPawn>, d1: Controller, d2: Controller)
    requires ValidConfig(cfg) && Shaped(g) && Halted(cfg, g)
    ensures var r := Advance(cfg, g, arrived, c1, c2);
      Shaped(r) && Advance(cfg, r, later, d1, d2) == r
  {
  }

  // ---------------------------------------------------------------------------
  // Shape facts used inside Tick

  lemma ArriveShaped(fs: seq<Fortress>, p: MovingPawn)
    requires FortressesShaped(fs) && PawnShaped(p)
    ensures FortressesShaped(Arrive(fs, p))
  {
  }

  lemma {:induction false} ArriveAllShaped(fs: seq<Fortress>, ms: seq<MovingPawn>, arrivals: seq<MovingPawn>)
    requires FortressesShaped(fs) && PawnsShaped(arrivals)
    ensures FortressesShaped(ArriveAll(fs, ms, arrivals).0)
    decreases |arrivals|
  {
    if arrivals != [] {
      ArriveShaped(fs, arrivals[0]);
      ArriveAllShaped(Arrive(fs, arrivals[0]), RemoveFirst(ms, arrivals[0]), arrivals[1..]);
    }
  }

  lemma PawnMoveShaped(fs: seq<Fortress>, ms: seq<MovingPawn>, arrived: set<MovingPawn>)
    requires |fs| == Size && PawnsShaped(ms)
    ensures PawnsShaped(PawnMove(fs, ms, arrived).1)
    ensures FortressesShaped(fs) ==> FortressesShaped(PawnMove(fs, ms, arrived).0)
  {
    PawnMoveRemovesArrivals(fs, ms, arrived);
    var arrivals := Arrivals(ms, arrived);
    assert PawnsShaped(arrivals) by {
      forall i | 0 <= i < |arrivals| ensures PawnShaped(arrivals[i]) {
        assert arrivals[i] in arrivals;
        var k :| 0 <= k < |ms| && ms[k] == arrivals[i];
      }
    }
    var st := Staying(ms, arrived);
    assert PawnsShaped(st) by {
      forall i | 0 <= i < |st| ensures PawnShaped(st[i]) {
        assert st[i] in st;
        var k :| 0 <= k < |ms| && ms[k] == st[i];
      }
    }
    if FortressesShaped(fs) {
      ArriveAllShaped(fs, ms, arrivals);
    }
  }

  lemma ApplyOrderShaped(cfg: Config, fs: seq<Fortress>, sp: seq<Batch>, team: int, o: BoardOrder)
    requires ValidConfig(cfg) && FortressesShaped(fs)
    ensures FortressesShaped(ApplyOrder(cfg, fs, sp, team, o).0)
    ensures BatchesShaped(sp) ==> BatchesShaped(ApplyOrder(cfg, fs, sp, team, o).1)
  {
  }
}

=== FILE: engine_proofs.dfy ===
/**
 Properties of the engine that relate several steps: the invariants of a
 running match survive every step and the whole tick, and batch release
 conserves pawns over a batch's lifetime.
 */
module EngineProofs {
  import opened Board
  import opened Engine

  // ---------------------------------------------------------------------------
  // Invariant preservation, step by step

  lemma ArriveKeepsOk(fs: seq<Fortress>, p: MovingPawn)
    requires FortressesOk(fs) && PawnOk(p)
    ensures FortressesOk(Arrive(fs, p))
  {
  }

  lemma {:induction false} ArriveAllKeepsOk(fs: seq<Fortress>, ms: seq<MovingPawn>, arrivals: seq<MovingPawn>)
    requires FortressesOk(fs) && PawnsOk(arrivals)
    ensures FortressesOk(ArriveAll(fs, ms, arrivals).0)
    decreases |arrivals|
  {
    if arrivals != [] {
      ArriveKeepsOk(fs, arrivals[0]);
      ArriveAllKeepsOk(Arrive(fs, arrivals[0]), RemoveFirst(ms, arrivals[0]), arrivals[1..]);
    }
  }

  /** Resolving arrivals keeps every fortress within its invariant (in
      particular no pawn count goes negative) and keeps the pawn invariant. */
  lemma PawnMoveKeepsOk(fs: seq<Fortress>, ms: seq<MovingPawn>, arrived: set<MovingPawn>)
    requires FortressesOk(fs) && PawnsOk(ms)
    ensures FortressesOk(PawnMove(fs, ms, arrived).0)
    ensures PawnsOk(PawnMove(fs, ms, arrived).1)
  {
    PawnMoveRemovesArrivals(fs, ms, arrived);
    var arrivals := Arrivals(ms, arrived);
    assert PawnsOk(arrivals) by {
      forall i | 0 <= i < |arrivals| ensures PawnOk(arrivals[i]) {
        assert arrivals[i] in arrivals;
        var k :| 0 <= k < |ms| && ms[k] == arrivals[i];
      }
    }
    var st := Staying(ms, arrived);
    assert PawnsOk(st) by {
      forall i | 0 <= i < |st| ensures PawnOk(st[i]) {
        assert st[i] in st;
        var k :| 0 <= k < |ms| && ms[k] == st[i];
      }
    }
    ArriveAllKeepsOk(fs, ms, arrivals);
  }

  /** A command from team 1 or 2 keeps the fortress and batch invariants: a
      deploy leaves at least half the pawns behind, an upgrade is paid from
      pawns actually present and starts only below level 5. */
  lemma ApplyOrderKeepsOk(cfg: Config, fs: seq<Fortress>, sp: seq<Batch>, team: int, o: BoardOrder)
    requires ValidConfig(cfg) && FortressesOk(fs) && BatchesOk(sp) && TeamOk(team)
    ensures FortressesOk(ApplyOrder(cfg, fs, sp, team, o).0)
    ensures BatchesOk(ApplyOrder(cfg, fs, sp, team, o).1)
  {
    var r := ApplyOrder(cfg, fs, sp, team, o);
    if o.command == 1 && CanDeliver(cfg, fs, team, o.subject, o.target) {
      assert forall i :: 0 <= i < |sp| ==> r.1[i] == sp[i];
    }
  }

  lemma {:induction false} CountDownAllKeepsOk(sp: seq<Batch>, step: int)
    requires BatchesOk(sp)
    ensures BatchesOk(CountDownAll(sp, step))
  {
  }

  lemma ReleasedOk(sp: seq<Batch>, step: int)
    requires BatchesOk(sp)
    ensures PawnsOk(Released(sp, step, 0))
  {
    ReleasedFromReleasing(sp, step, 0);
  }

  lemma DepartureKeepsOk(sp: seq<Batch>, ms: seq<MovingPawn>, step: int)
    requires BatchesOk(sp) && PawnsOk(ms)
    ensures BatchesOk(Departure(sp, ms, step).0)
    ensures PawnsOk(Departure(sp, ms, step).1)
  {
    CountDownAllKeepsOk(sp, step);
    ReleasedOk(sp, step);
    RemoveExhaustedKeepsOk(CountDownAll(sp, step));
    AppendPawnsOk(ms, Released(sp, step, 0));
  }

  lemma RemoveExhaustedKeepsOk(c: seq<Batch>)
    requires BatchesOk(c)
    ensures BatchesOk(RemoveFirstExhausted(c))
  {
    var k := FirstExhausted(c);
    if k < |c| {
      var r := RemoveFirstExhausted(c);
      assert forall i :: 0 <= i < |r| ==> r[i] == (if i < k then c[i] else c[i + 1]);
    }
  }

  lemma AppendPawnsOk(a: seq<MovingPawn>, b: seq<MovingPawn>)
    requires PawnsOk(a) && PawnsOk(b)
    ensures PawnsOk(a + b)
  {
  }

  /** Departure keeps the pawns in flight pairwise distinct: the old ones were
      released before this tick, the new ones on it, each from its own batch. */
  lemma DepartureKeepsDistinct(sp: seq<Batch>, ms: seq<MovingPawn>, step: int)
    requires PawnsDistinct(ms) && BornBefore(ms, step)
    ensures PawnsDistinct(Departure(sp, ms, step).1)
    ensures BornBefore(Departure(sp, ms, step).1, step + 1)
  {
    ReleasedExactly(sp, step);
    AppendFreshDistinct(ms, Released(sp, step, 0), step);
  }

  lemma AppendFreshDistinct(a: seq<MovingPawn>, b: seq<MovingPawn>, step: int)
    requires PawnsDistinct(a) && PawnsDistinct(b) && BornBefore(a, step)
    requires forall j :: 0 <= j < |b| ==> b[j].born == step
    ensures PawnsDistinct(a + b) && BornBefore(a + b, step + 1)
  {
    var r := a + b;
    forall i, j | 0 <= i < j < |r|
      ensures r[i] != r[j]
    {
      if j < |a| {
        assert r[i] == a[i] && r[j] == a[j];
      } else if i < |a| {
        assert r[i] == a[i] && r[j] == b[j - |a|];
      } else {
        assert r[i] == b[i - |a|] && r[j] == b[j - |a|];
      }
    }
  }

  /** Arrival resolution keeps only pawns that were already walking, so it
      keeps them distinct and released before this tick. */
  lemma PawnMoveKeepsDistinct(fs: seq<Fortress>, ms: seq<MovingPawn>, arrived: set<MovingPawn>, step: int)
    requires |fs| == Size && PawnsShaped(ms) && PawnsDistinct(ms) && BornBefore(ms, step)
    ensures PawnsDistinct(PawnMove(fs, ms, arrived).1)
    ensures BornBefore(PawnMove(fs, ms, arrived).1, step)
  {
    PawnMoveRemovesArrivals(fs, ms, arrived);
    StayingDistinct(ms, arrived);
    var st := Staying(ms, arrived);
    forall i | 0 <= i < |st|
      ensures st[i].born < step
    {
      assert st[i] in st;
      var k :| 0 <= k < |ms| && ms[k] == st[i];
    }
  }

  lemma ProductionKeepsOk(cfg: Config, fs: seq<Fortress>, step: int)
    requires ValidConfig(cfg) && FortressesOk(fs)
    ensures FortressesOk(Production(cfg, fs, step))
  {
  }

  lemma DecayKeepsOk(cfg: Config, fs: seq<Fortress>, step: int)
    requires ValidConfig(cfg) && FortressesOk(fs)
    ensures FortressesOk(Decay(cfg, fs, step))
  {
    assert forall i :: 0 <= i < Size ==> cfg.limit[fs[i].level] > 0;
  }

  lemma CheckUpgradeKeepsOk(fs: seq<Fortress>)
    requires FortressesOk(fs)
    ensures FortressesOk(CheckUpgrade(fs))
  {
  }

  /** Production, decay and the upgrade countdown keep level 1..5, the timer
      in {-1} or 0..200 and non-negative pawns. */
  lemma UpkeepKeepsOk(cfg: Config, fs: seq<Fortress>, step: int)
    requires ValidConfig(cfg) && FortressesOk(fs)
    ensures FortressesOk(Upkeep(cfg, fs, step))
  {
    var born := Production(cfg, fs, step);
    ProductionKeepsOk(cfg, fs, step);
    var over := if step % DecayPeriod == 0 then Decay(cfg, born, step) else born;
    if step % DecayPeriod == 0 {
      DecayKeepsOk(cfg, born, step);
    }
    CheckUpgradeKeepsOk(over);
  }

  lemma CommandsKeepOk(cfg: Config, fs: seq<Fortress>, sp: seq<Batch>, o1: BoardOrder, o2: BoardOrder)
    requires ValidConfig(cfg) && FortressesOk(fs) && BatchesOk(sp)
    ensures FortressesOk(Commands(cfg, fs, sp, o1, o2).0)
    ensures BatchesOk(Commands(cfg, fs, sp, o1, o2).1)
  {
    ApplyOrderKeepsOk(cfg, fs, sp, 1, o1);
    var first := ApplyOrder(cfg, fs, sp, 1, o1);
    ApplyOrderKeepsOk(cfg, first.0, first.1, 2, o2);
  }

  /** Steps 4 to 9 keep the match invariant, whatever the two commands are. */
  lemma AfterOrdersKeepsInv(cfg: Config, g: Game, fs: seq<Fortress>, ms: seq<MovingPawn>, done: bool,
                            o1: BoardOrder, o2: BoardOrder)
    requires ValidConfig(cfg) && Inv(g) && FortressesOk(fs) && PawnsOk(ms)
    requires PawnsDistinct(ms) && BornBefore(ms, g.step)
    ensures Inv(AfterOrders(cfg, g, fs, ms, done, o1, o2))
  {
    var commanded := Commands(cfg, fs, g.spawning, o1, o2);
    CommandsKeepOk(cfg, fs, g.spawning, o1, o2);
    DepartureKeepsOk(commanded.1, ms, g.step);
    DepartureKeepsDistinct(commanded.1, ms, g.step);
    UpkeepKeepsOk(cfg, commanded.0, g.step);
  }

  /** The main theorem of the engine: whatever the controllers answer and
      whichever pawns arrive, a tick keeps every level in 1..5, every timer in
      {-1} or 0..200, every pawn and batch count non-negative and every index on
      the board. */
  lemma TickKeepsInv(cfg: Config, g: Game, arrived: set<MovingPawn>, c1: Controller, c2: Controller)
    requires ValidConfig(cfg) && Inv(g)
    ensures Inv(Tick(cfg, g, arrived, c1, c2))
  {
    var moved := PawnMove(g.fortresses, g.moving, arrived);
    PawnMoveKeepsOk(g.fortresses, g.moving, arrived);
    PawnMoveKeepsDistinct(g.fortresses, g.moving, arrived, g.step);
    var done := CheckGameOver(moved.0).over || g.step == cfg.stepLimit - 1;
    var orders := Orders(cfg, moved.0, moved.1, g.spawning, done, c1, c2);
    AfterOrdersKeepsInv(cfg, g, moved.0, moved.1, done, orders.0, orders.1);
  }

  /** In every valid match the geometry can report any one pawn in flight on
      its own, as the source's per-pawn distance test does: that pawn alone
      hits its target and every other pawn keeps walking. */
  lemma AnyPawnArrivesAlone(g: Game, k: nat)
    requires Inv(g) && k < |g.moving|
    ensures var r := PawnMove(g.fortresses, g.moving, {g.moving[k]});
      r.0 == Arrive(g.fortresses, g.moving[k])
      && r.1 == g.moving[..k] + g.moving[k + 1..]
  {
    OnePawnArrives(g.moving, k);
    PawnMoveRemovesArrivals(g.fortresses, g.moving, {g.moving[k]});
  }

  lemma InvIsShaped(g: Game)
    requires Inv(g)
    ensures Shaped(g)
  {
  }

  /** Consecutive ticks, one per arrival report. */
  function Run(cfg: Config, g: Game, arrivals: seq<set<MovingPawn>>, c1: Controller, c2: Controller): (r: Game)
    requires ValidConfig(cfg) && Inv(g)
    ensures Inv(r)
    decreases |arrivals|
  {
    if arrivals == [] then g
    else
      InvIsShaped(g);
      var next := Tick(cfg, g, arrivals[0], c1, c2);
      TickKeepsInv(cfg, g, arrivals[0], c1, c2);
      Run(cfg, next, arrivals[1..], c1, c2)
  }

  // ---------------------------------------------------------------------------
  // Pawn conservation in batch release

  function SumCounts(sp: seq<Batch>): int {
    if sp == [] then 0 else sp[0].count + SumCounts(sp[1..])
  }

  lemma {:induction false} SumCountsAppend(a: seq<Batch>, b: seq<Batch>)
    ensures SumCounts(a + b) == SumCounts(a) + SumCounts(b)
    decreases |a|
  {
    if a == [] {
      assert a + b == b;
    } else {
      assert (a + b)[0] == a[0];
      assert (a + b)[1..] == a[1..] + b;
      SumCountsAppend(a[1..], b);
    }
  }

  lemma {:induction false} CountDownReleases(sp: seq<Batch>, step: int, first: int)
    ensures SumCounts(CountDownAll(sp, step)) + |Released(sp, step, first)| == SumCounts(sp)
    decreases |sp|
  {
    if sp != [] {
      CountDownReleases(sp[1..], step, first + 1);
      assert CountDownAll(sp, step)[1..] == CountDownAll(sp[1..], step);
    }
  }

  lemma RemoveExhaustedKeepsSum(c: seq<Batch>)
    requires BatchesOk(c)
    ensures SumCounts(RemoveFirstExhausted(c)) == SumCounts(c)
  {
    var k := FirstExhausted(c);
    if k < |c| {
      assert c == c[..k] + [c[k]] + c[k + 1..];
      SumCountsAppend(c[..k] + [c[k]], c[k + 1..]);
      SumCountsAppend(c[..k], [c[k]]);
      SumCountsAppend(c[..k], c[k + 1..]);
      assert SumCounts([c[k]]) == c[k].count == 0;
    }
  }

  /** `pawn_departure` moves pawns, it does not create or destroy them: the
      pawns still waiting in batches plus the pawns on the road are the same
      before and after, one released pawn per batch whose turn it was. */
  lemma DepartureConserves(sp: seq<Batch>, ms: seq<MovingPawn>, step: int)
    requires BatchesOk(sp)
    ensures var r := Departure(sp, ms, step);
      SumCounts(r.0) + |r.1| == SumCounts(sp) + |ms|
  {
    CountDownReleases(sp, step, 0);
    CountDownAllKeepsOk(sp, step);
    RemoveExhaustedKeepsSum(CountDownAll(sp, step));
  }

  // ---------------------------------------------------------------------------
  // The lifetime of one batch

  /** Release period of a batch of this kind. */
  function Period(kind: int): (p: int)
    requires 0 <= kind <= 1
    ensures p > 0
  {
    if kind == 0 then 7 else 10
  }

  /** A batch after `n` ticks starting at `step`, and the pawns it released. */
  function Drain(b: Batch, step: int, n: nat): (Batch, nat)
    decreases n
  {
    if n == 0 then (b, 0)
    else
      var rest := Drain(AfterRelease(b, step), step + 1, n - 1);
      (rest.0, rest.1 + (if Releases(b, step) then 1 else 0))
  }

  /** No more: a batch never releases more pawns than it was created with, and
      what it released plus what it still holds is its initial count. */
  lemma {:induction false} DrainConserves(b: Batch, step: int, n: nat)
    requires b.count >= 0
    ensures Drain(b, step, n).0.count >= 0
    ensures Drain(b, step, n).0.count + Drain(b, step, n).1 == b.count
    ensures Drain(b, step, n).0 == b.(count := Drain(b, step, n).0.count)
    decreases n
  {
    if n > 0 {
      DrainConserves(AfterRelease(b, step), step + 1, n - 1);
    }
  }

  lemma {:induction false} DrainSplit(b: Batch, step: int, m: nat, n: nat)
    ensures var first := Drain(b, step, m);
      var second := Drain(first.0, step + m, n);
      Drain(b, step, m + n) == (second.0, first.1 + second.1)
    decreases m
  {
    if m > 0 {
      DrainSplit(AfterRelease(b, step), step + 1, m - 1, n);
    }
  }

  /** The first tick at or after `step` on which a batch of this kind may release. */
  lemma NextReleaseTick(kind: int, step: int) returns (k: nat)
    requires 0 <= kind <= 1
    ensures k < Period(kind) && (step + k) % Period(kind) == 0
  {
    if kind == 0 {
      k := NextMultiple(step, 7);
    } else {
      k := NextMultiple(step, 10);
    }
  }

  /** The distance from `step` to the next multiple of `p`. */
  lemma NextMultiple(step: int, p: int) returns (k: nat)
    requires p == 7 || p == 10
    ensures k < p && (step + k) % p == 0
  {
    var r := step % p;
    var q := step / p;
    if r == 0 {
      k := 0;
    } else {
      k := p - r;
      MultipleMod(step + k, q + 1, p);
    }
  }

  lemma MultipleMod(a: int, m: int, p: int)
    requires p == 7 || p == 10
    requires a == p * m
    ensures a % p == 0
  {
  }

  /** A batch with pawns left that meets a release tick within `n` ticks has
      released at least one pawn by the end of them. */
  lemma {:induction false} ReleaseBy(b: Batch, step: int, n: nat, k: nat)
    requires 0 <= b.kind <= 1 && b.count >= 1 && k < n && (step + k) % Period(b.kind) == 0
    ensures Drain(b, step, n).0.count <= b.count - 1
    decreases k
  {
    var a := AfterRelease(b, step);
    assert Drain(b, step, n).0 == Drain(a, step + 1, n - 1).0;
    DrainConserves(a, step + 1, n - 1);
    if k == 0 {
      assert Releases(b, step);
    } else if !Releases(b, step) {
      ReleaseBy(a, step + 1, n - 1, k - 1);
    }
  }

  /** Within one period a batch with pawns left releases at least one. */
  lemma OnePeriodReleases(b: Batch, step: int)
    requires 0 <= b.kind <= 1 && b.count >= 1
    ensures Drain(b, step, Period(b.kind)).0.count <= b.count - 1
  {
    var k := NextReleaseTick(b.kind, step);
    ReleaseBy(b, step, Period(b.kind), k);
  }

  /** No less: after `Period(kind)` ticks per pawn a batch has released every
      pawn it was created with. */
  lemma {:induction false} DrainCompletes(b: Batch, step: int, n: nat)
    requires 0 <= b.kind <= 1 && b.count >= 0 && n >= Period(b.kind) * b.count
    ensures Drain(b, step, n).0.count == 0
    ensures Drain(b, step, n).1 == b.count
    decreases b.count
  {
    DrainConserves(b, step, n);
    if b.count > 0 {
      var p := Period(b.kind);
      PeriodBudget(b.kind, n, b.count);
      var m: nat := n - p;
      DrainSplit(b, step, p, m);
      var c := Drain(b, step, p).0;
      OnePeriodReleases(b, step);
      DrainConserves(b, step, p);
      RemainingBudget(b.kind, m, b.count, c.count);
      DrainCompletes(c, step + p, m);
    }
  }

  lemma PeriodBudget(kind: int, n: int, count: int)
    requires 0 <= kind <= 1 && count >= 1 && n >= Period(kind) * count
    ensures n >= Period(kind)
  {
    if kind == 0 {
      assert n >= 7 * count;
    } else {
      assert n >= 10 * count;
    }
  }

  lemma RemainingBudget(kind: int, m: int, count: int, left: int)
    requires 0 <= kind <= 1 && 0 <= left <= count - 1 && m + Period(kind) >= Period(kind) * count
    ensures m >= Period(kind) * left
  {
    if kind == 0 {
      assert m + 7 >= 7 * count && 7 * left <= 7 * (count - 1);
    } else {
      assert m + 10 >= 10 * count && 10 * left <= 10 * (count - 1);
    }
  }

  // ---------------------------------------------------------------------------
  // A worked capture

  /** A fortress holding 3 pawns withstands four hostile kind-0 pawns (0.4 left)
      and falls to the fifth (3 - 5 * 0.65 < 0): it passes to the attacker at
      level 1 with no pawns and no upgrade, keeping its kind and neighbours. */
  lemma FiveHitsCapture(fs: seq<Fortress>, p: MovingPawn)
    requires |fs| == Size && PawnShaped(p) && p.kind == 0
    requires fs[p.target].pawns == 3.0 && fs[p.target].team != p.team
    ensures var four := ArriveAll(fs, [], [p, p, p, p]).0;
      four[p.target] == fs[p.target].(pawns := 0.4)
    ensures var five := ArriveAll(fs, [], [p, p, p, p, p]).0;
      five[p.target] == Fortress(p.team, fs[p.target].kind, 1, 0.0, -1, fs[p.target].neighbors)
  {
    var t := p.target;
    var f1 := Arrive(fs, p);
    assert f1[t] == fs[t].(pawns := 2.35);
    var f2 := Arrive(f1, p);
    assert f2[t] == fs[t].(pawns := 1.7);
    var f3 := Arrive(f2, p);
    assert f3[t] == fs[t].(pawns := 1.05);
    var f4 := Arrive(f3, p);
    assert f4[t] == fs[t].(pawns := 0.4);
    var f5 := Arrive(f4, p);
    assert f5[t] == Fortress(p.team, fs[t].kind, 1, 0.0, -1, fs[t].neighbors);
    UnfoldArrivals(fs, p, [p, p, p]);
    UnfoldArrivals(f1, p, [p, p]);
    UnfoldArrivals(f2, p, [p]);
    UnfoldArrivals(f3, p, []);
    UnfoldArrivals(fs, p, [p, p, p, p]);
    UnfoldArrivals(f1, p, [p, p, p]);
    UnfoldArrivals(f2, p, [p, p]);
    UnfoldArrivals(f3, p, [p]);
    UnfoldArrivals(f4, p, []);
  }

  /** One iteration of the arrival loop with nothing else moving. */
  lemma UnfoldArrivals(fs: seq<Fortress>, p: MovingPawn, rest: seq<MovingPawn>)
    requires 0 <= p.target < |fs| && forall i :: 0 <= i < |rest| ==> rest[i] == p
    ensures ArriveAll(fs, [], [p] + rest).0 == ArriveAll(Arrive(fs, p), [], rest).0
  {
    assert ([p] + rest)[1..] == rest;
  }
}

=== FILE: ml_player.dfy ===
/**
 The PPO learned controller. Unlike the other learned controllers it remembers
 which team it was asked to play: when that was team 2 it maps the subject and
 target of its decoded command back through swapL itself.
 */
module MlPlayer {
  import opened Board
  import opened Perspective
  import opened Engine
  import opened ActionCodec

  /** `update`: flip to team 1, mask, pick, decode, and for a team-2 caller map
      subject and target back through swapL, the wait's zeros included; the
      command code is never changed. A team-1 caller gets the decoded command
      as it is. */
  function Update(cfg: Config, predict: (Info, seq<bool>) -> Action, info: Info): (o: BoardOrder)
    requires ValidConfig(cfg) && ViewShaped(info)
    ensures var v := FlipBoardView(cfg, info);
      var a := predict(v, Mask(cfg, v.fortresses));
      && (a < MoveBase ==> o.command == 0)
      && (MoveBase <= a < UpgradeBase ==> o.command == 1)
      && (UpgradeBase <= a ==> o.command == 2)
      && (info.team == 2 ==> a >= MoveBase ==> Encode(Order(o.command, cfg.swapL[o.subject], cfg.swapL[o.target])) == a)
      && (info.team == 2 && a < MoveBase ==> o == Order(0, cfg.swapL[0], cfg.swapL[0]))
      && (info.team != 2 ==> (a < MoveBase ==> o == Wait) && (a >= MoveBase ==> Encode(o) == a))
  {
    var v := FlipBoardView(cfg, info);
    var d := Decode(predict(v, Mask(cfg, v.fortresses)));
    if info.team == 2 then Order(d.command, cfg.swapL[d.subject], cfg.swapL[d.target]) else d
  }

  /** The controller picks the same board command whichever way it is seated
      as team 2: asked directly with the raw team-2 view (and mapping back
      itself), or, as the match does, handed the relabelled view and mapped back
      by the engine. */
  lemma SeatIndependent(cfg: Config, predict: (Info, seq<bool>) -> Action,
                        fs: seq<Fortress>, ms: seq<MovingPawn>, sp: seq<Batch>, done: bool)
    requires ValidConfig(cfg) && FortressesShaped(fs) && PawnsShaped(ms) && BatchesShaped(sp)
    ensures var raw := Info(2, fs, ms, sp, done);
      Update(cfg, predict, raw) == Unflip(cfg, Update(cfg, predict, Relabel(cfg, raw)))
  {
    var raw := Info(2, fs, ms, sp, done);
    var view := Relabel(cfg, raw);
    assert FlipBoardView(cfg, raw) == view;
    assert FlipBoardView(cfg, view) == view;
  }

  /** Asked directly as team 2, the command it returns is accepted for team 2
      on the board whenever the policy picked an offered slot other than wait. */
  lemma RawRedAccepted(cfg: Config, predict: (Info, seq<bool>) -> Action,
                       fs: seq<Fortress>, ms: seq<MovingPawn>, sp: seq<Batch>, done: bool)
    requires ValidConfig(cfg) && SymmetricBoard(cfg)
    requires FortressesShaped(fs) && PawnsShaped(ms) && BatchesShaped(sp)
    ensures var raw := Info(2, fs, ms, sp, done);
      var view := Relabel(cfg, raw);
      var m := Mask(cfg, view.fortresses);
      var a := predict(view, m);
      a != 0 && m[a] ==> Accepted(cfg, fs, 2, Update(cfg, predict, raw))
  {
    var raw := Info(2, fs, ms, sp, done);
    FlippedMaskMatchesRed(cfg, fs);
    assert FlipBoardView(cfg, raw) == Relabel(cfg, raw);
  }
}

=== FILE: onct.dfy ===
/**
 The counter-strategy learned controller: it flips its view so that it plays
 team 1, builds the legality mask, lets its policy pick a slot and decodes the
 slot into a command. Without a loaded model it always waits.
 */
module Onct {
  import opened Board
  import opened Perspective
  import opened Engine
  import opened ActionCodec

  /** `update`: wait without a model; otherwise the decoded choice of the
      policy on the flipped view. A choice below slot 144 is a wait, any other
      choice is the command that re-encodes to it, and an offered choice other
      than wait is a command the engine accepts for team 1 on that view. */
  function Update(cfg: Config, model: Policy, info: Info): (o: BoardOrder)
    requires ValidConfig(cfg)
    requires model.Loaded? ==> ViewShaped(info)
    ensures model.NoModel? ==> o == Wait
    ensures model.Loaded? ==>
      var v := FlipBoardView(cfg, info);
      var m := Mask(cfg, v.fortresses);
      var a := model.predict(v, m);
      && (a < MoveBase ==> o == Wait)
      && (a >= MoveBase ==> Encode(o) == a)
      && (a != 0 && m[a] ==> Accepted(cfg, v.fortresses, 1, o))
  {
    match model
    case NoModel => Wait
    case Loaded(predict) =>
      var v := FlipBoardView(cfg, info);
      var m := Mask(cfg, v.fortresses);
      MaskedIffAccepted(cfg, v.fortresses);
      Decode(predict(v, m))
  }

  /** Seated as team 2 in a match, the controller is handed the relabelled
      view; its command, mapped back to board indices as the engine does, is
      accepted for team 2 on the board itself whenever the policy picked an
      offered slot other than wait. */
  lemma RedSeatAccepted(cfg: Config, model: Policy, fs: seq<Fortress>, ms: seq<MovingPawn>, sp: seq<Batch>, done: bool)
    requires ValidConfig(cfg) && SymmetricBoard(cfg) && model.Loaded?
    requires FortressesShaped(fs) && PawnsShaped(ms) && BatchesShaped(sp)
    ensures var view := Relabel(cfg, Info(2, fs, ms, sp, done));
      var m := Mask(cfg, view.fortresses);
      var a := model.predict(view, m);
      a != 0 && m[a] ==> Accepted(cfg, fs, 2, Unflip(cfg, Update(cfg, model, view)))
  {
    var view := Relabel(cfg, Info(2, fs, ms, sp, done));
    FlippedMaskMatchesRed(cfg, fs);
    assert FlipBoardView(cfg, view) == view;
  }
}

=== FILE: perspective.dfy ===
/**
 The perspective flip: the top player (team 2) is shown the board rotated and
 relabelled so that it, too, sees itself as team 1 on the bottom half.
 Fortress contents move through the index map `swapL`; each fortress keeps the
 neighbour list of its own (unflipped) position; pawns and batches have their
 teams relabelled and their endpoints mapped through `swapD`.
 */
module Perspective {
  import opened Board

  /** Neutral stays neutral, team 2 becomes team 1 and anything else becomes team 2. */
  function SwapTeam(t: int): (r: int)
    ensures TeamOk(r)
    ensures r == 0 <==> t == 0
    ensures r == 1 <==> t == 2
  {
    if t == 0 then 0 else if t == 2 then 1 else 2
  }

  /** Relabelling twice gives every valid team id back. */
  lemma SwapTeamInvolution(t: int)
    requires TeamOk(t)
    ensures SwapTeam(SwapTeam(t)) == t
    ensures SwapTeam(t) != t <==> t != 0
  {
  }

  /** Fortress `i` of the flipped view shows the content of fortress `swapL[i]`
      with its owner relabelled, but keeps the neighbour list found at `i`. */
  function FlipFortresses(cfg: Config, fs: seq<Fortress>): (r: seq<Fortress>)
    requires ValidConfig(cfg) && |fs| == Size
    ensures |r| == Size
    ensures forall i :: 0 <= i < Size ==>
      && r[i].team == SwapTeam(fs[cfg.swapL[i]].team)
      && r[i].kind == fs[cfg.swapL[i]].kind
      && r[i].level == fs[cfg.swapL[i]].level
      && r[i].pawns == fs[cfg.swapL[i]].pawns
      && r[i].timer == fs[cfg.swapL[i]].timer
      && r[i].neighbors == fs[i].neighbors
  {
    seq(Size, i requires 0 <= i < Size =>
      var f := fs[cfg.swapL[i]];
      Fortress(SwapTeam(f.team), f.kind, f.level, f.pawns, f.timer, fs[i].neighbors))
  }

  /** Moving pawns keep their order, kind, position and identity; team and endpoints are relabelled. */
  function FlipMoving(cfg: Config, ms: seq<MovingPawn>): (r: seq<MovingPawn>)
    requires ValidConfig(cfg) && PawnsShaped(ms)
    ensures |r| == |ms| && PawnsShaped(r)
    ensures forall i :: 0 <= i < |ms| ==>
      && r[i].team == SwapTeam(ms[i].team)
      && r[i].kind == ms[i].kind
      && r[i].origin == cfg.swapD[ms[i].origin]
      && r[i].target == cfg.swapD[ms[i].target]
      && r[i].pos == ms[i].pos && r[i].born == ms[i].born && r[i].slot == ms[i].slot
  {
    seq(|ms|, i requires 0 <= i < |ms| =>
      MovingPawn(SwapTeam(ms[i].team), ms[i].kind, cfg.swapD[ms[i].origin], cfg.swapD[ms[i].target], ms[i].pos, ms[i].born, ms[i].slot))
  }

  /** Batches keep their order, kind, remaining count and spawn point; team and
      endpoints are relabelled. */
  function FlipSpawning(cfg: Config, sp: seq<Batch>): (r: seq<Batch>)
    requires ValidConfig(cfg) && BatchesShaped(sp)
    ensures |r| == |sp| && BatchesShaped(r)
    ensures forall i :: 0 <= i < |sp| ==>
      && r[i].team == SwapTeam(sp[i].team)
      && r[i].kind == sp[i].kind
      && r[i].count == sp[i].count
      && r[i].origin == cfg.swapD[sp[i].origin]
      && r[i].target == cfg.swapD[sp[i].target]
      && r[i].pos == sp[i].pos
  {
    seq(|sp|, i requires 0 <= i < |sp| =>
      Batch(SwapTeam(sp[i].team), sp[i].kind, sp[i].count, cfg.swapD[sp[i].origin], cfg.swapD[sp[i].target], sp[i].pos))
  }

  /** What `Info` must look like for the relabelling to index only inside the tables. */
  predicate InfoShaped(info: Info) {
    |info.fortresses| == Size && PawnsShaped(info.moving) && BatchesShaped(info.spawning)
  }

  /** What a controller needs of a view before flipping it and building its mask. */
  predicate ViewShaped(info: Info) {
    InfoShaped(info) && FortressesShaped(info.fortresses)
  }

  /** The unconditional relabelling of a whole view. */
  function Relabel(cfg: Config, info: Info): (r: Info)
    requires ValidConfig(cfg) && InfoShaped(info)
    ensures InfoShaped(r)
    ensures r.team == SwapTeam(info.team) && r.done == info.done
    ensures FortressesShaped(info.fortresses) ==> FortressesShaped(r.fortresses)
  {
    Info(SwapTeam(info.team),
         FlipFortresses(cfg, info.fortresses),
         FlipMoving(cfg, info.moving),
         FlipSpawning(cfg, info.spawning),
         info.done)
  }

  /** A team-1 view is returned as it is; any other view is relabelled. */
  function FlipBoardView(cfg: Config, info: Info): (r: Info)
    requires ValidConfig(cfg)
    requires info.team != 1 ==> InfoShaped(info)
    ensures info.team == 1 ==> r == info
    ensures info.team == 2 ==> r.team == 1
    ensures info.team != 1 ==> r == Relabel(cfg, info)
  {
    if info.team == 1 then info else Relabel(cfg, info)
  }

  /** The fortress, pawn and batch invariants survive the relabelling. */
  lemma RelabelKeepsOk(cfg: Config, info: Info)
    requires ValidConfig(cfg) && InfoShaped(info)
    requires FortressesOk(info.fortresses) && PawnsOk(info.moving) && BatchesOk(info.spawning)
    ensures var r := Relabel(cfg, info);
      FortressesOk(r.fortresses) && PawnsOk(r.moving) && BatchesOk(r.spawning)
  {
  }

  /** Relabelling is an involution on views whose team ids are 0, 1 or 2. */
  lemma RelabelInvolution(cfg: Config, info: Info)
    requires ValidConfig(cfg) && InfoShaped(info) && TeamOk(info.team)
    requires forall i :: 0 <= i < |info.fortresses| ==> TeamOk(info.fortresses[i].team)
    requires forall i :: 0 <= i < |info.moving| ==> TeamOk(info.moving[i].team)
    requires forall i :: 0 <= i < |info.spawning| ==> TeamOk(info.spawning[i].team)
    ensures Relabel(cfg, Relabel(cfg, info)) == info
  {
    var once := Relabel(cfg, info);
    var twice := Relabel(cfg, once);
    var fs := info.fortresses;
    forall i | 0 <= i < Size
      ensures twice.fortresses[i] == fs[i]
    {
      SwapTeamInvolution(fs[i].team);
      assert cfg.swapL[cfg.swapL[i]] == i;
    }
    assert twice.fortresses == fs;
    forall i | 0 <= i < |info.moving|
      ensures twice.moving[i] == info.moving[i]
    {
      SwapTeamInvolution(info.moving[i].team);
    }
    assert twice.moving == info.moving;
    forall i | 0 <= i < |info.spawning|
      ensures twice.spawning[i] == info.spawning[i]
    {
      SwapTeamInvolution(info.spawning[i].team);
    }
    assert twice.spawning == info.spawning;
    SwapTeamInvolution(info.team);
  }

  /** The view handed to team 2 is a team-1 view, so flipping it again (as the
      learned controllers do on entry) changes nothing. */
  lemma FlipOfFlipIsFlip(cfg: Config, info: Info)
    requires ValidConfig(cfg) && InfoShaped(info) && (info.team == 1 || info.team == 2)
    ensures FlipBoardView(cfg, info).team == 1
    ensures FlipBoardView(cfg, FlipBoardView(cfg, info)) == FlipBoardView(cfg, info)
  {
  }
}
